=== FILE: README.md ===
# Time-tracking and invoicing backend: a Dafny model

This project models the core of a NestJS backend for freelance time tracking and
invoicing. It is a sequential, functional model: the database is a store of
immutable maps from id to record, each service method is a pure function
returning `Ok(new store)` or `Err(NotFound | BadRequest | Unauthorized | StorageRejected)`,
where `StorageRejected` is a save the database refuses (a NOT NULL column
given `null`), money
and hours are exact reals, and time is integer milliseconds.

The main part is the **invoice claim ledger**:

- Shift and mileage records carry an `isInvoiced` flag.
- Invoices hold lists of shift and mileage ids and five derived totals.
- The invoice service claims records (create), diff-updates the claimed lists
  (update), marks invoices paid and deletes them, releasing their records.
- The shift and mileage services derive amounts and refuse to touch a flagged record.

Two invariants are proved to hold across every one of these operations:

1. a record is flagged exactly when one invoice holds it;
2. each invoice's totals equal the sums over its current members.

Smaller parts:

- the dashboard folds (totals, the paid/unpaid split, per-status, per-client and
  per-period tables, and period-key generation, with the calendar kept abstract);
- refresh-token rotation in the auth service;
- the owner-scoped client store;
- the logger's level filter and line format.

Modules, one per source component:

- `Wrappers`: `Option`, `Result`, `Error`, and JavaScript `||`/`??` helpers.
- `Entities`: the records of the database.
- `Seqs`: small sequence helpers.
- `Decimal`: decimal rendering and `padStart`.
- `Folds`: `filter`/`reduce` and the partition lemma.
- `Clients`, `Shifts`, `Mileages`, `Invoices`: one module per service.
- `Ledger`, `LedgerProofs`: the claim-ledger invariants and their preservation.
- `InvoiceFacts`: facts about invoice operations and their combinations.
- `Dashboard`, `Auth`, `Logger`.

## Model

| member | source | states |
|---|---|---|
| Clients.Create | src/clients/clients.service.ts:19-26 | the new client is owned by the caller whatever the input, carries the input fields, and no other client changes |
| Clients.FindOne | src/clients/clients.service.ts:46-55 | a client is returned exactly when both its id and its owner match; otherwise NotFound |
| Clients.Update | src/clients/clients.service.ts:58-71 | NotFound when the caller does not own the client; StorageRejected when the body sets the NOT NULL name to `null`; nothing is written on either error; otherwise only that client changes, a supplied value replaces the stored field, `null` clears a nullable field and a missing field is kept |
| Clients.Remove | src/clients/clients.service.ts:73-83 | NotFound under the same ownership test; otherwise exactly that client is deleted and all others are untouched |
| Clients.CreateThenFind | src/clients/clients.service.ts:19-55 | a created client is found by its creator and by no other user |
| Clients.CreateThenRemove | src/clients/clients.service.ts:19-83 | creating then removing a client restores the store |
| Clients.RemoveThenFind | src/clients/clients.service.ts:46-83 | after a removal nobody finds the client |
| Clients.UpdateThenFind | src/clients/clients.service.ts:46-71 | after an update the owner, and nobody else, finds the client, carrying the patched name, address and notes (a `null` address or notes reads back as none) |
| Clients.UpdateIdempotent | src/clients/clients.service.ts:58-71 | applying the same patch a second time changes nothing |
| Shifts.HstPercentage | src/shifts/shifts.service.ts:38 | the user's percentage is used unless it is missing or zero, in which case 13 is used |
| Shifts.Create | src/shifts/shifts.service.ts:23-70 | NotFound exactly when the client is not the caller's; the new shift is unflagged, owned by the caller, and its hours, earnings and HST are derived from its times, rate and the HST percentage; the location rules for useCurrentLocation follow `||` |
| Shifts.Update | src/shifts/shifts.service.ts:128-193 | NotFound for a missing, foreign or invoiced shift or a client id whose lookup fails (a `null` id finds any of the caller's clients); after that, StorageRejected when the shift type, hourly rate or client id is `null`; nothing is written on any error; otherwise hours are recomputed only when a time is supplied, supplied fields replace stored ones, `null` notes or location clear them, and earnings and HST are always recomputed; with useCurrentLocation and a non-empty clientId, the client's address, latitude and longitude replace the shift's when they are truthy |
| Ledger.RemoveRecord | src/shifts/shifts.service.ts:195-210 | NotFound exactly for a missing, foreign or invoiced record; otherwise exactly that record is deleted and every other is unchanged (the mileage service's `remove`, src/mileages/mileages.service.ts lines 158 to 173, is the same code) |
| Shifts.UpdateKeepsDerived | src/shifts/shifts.service.ts:145-189 | if the stored hours matched the stored times, every derived column matches after an update |
| Shifts.CreateThenRemove | src/shifts/shifts.service.ts:23-210 | creating then removing a shift restores the store |
| Shifts.NegativeHoursAccepted | src/shifts/shifts.service.ts:30-32 | an end before the start is accepted and stores negative hours and earnings |
| Shifts.ZeroHstFallsBack | src/shifts/shifts.service.ts:38-40 | a shift created for a user whose HST percentage is 0 is stored with 13% HST, which is positive whenever its earnings are |
| Mileages.Create | src/mileages/mileages.service.ts:23-45 | NotFound when the client is not the caller's; StorageRejected with nothing written when neither the input nor the user gives a rate (the rate column is NOT NULL); otherwise the entry is unflagged, its rate is the supplied one when present (0 included) else the user's, and amount = distance × rate |
| Mileages.Update | src/mileages/mileages.service.ts:103-156 | NotFound for a missing, foreign or invoiced entry or a client id whose lookup fails (a `null` id finds any of the caller's clients); after that, StorageRejected when the distance, rate or client id is `null`; nothing is written on any error; otherwise supplied fields replace stored ones, `null` text fields clear them, and the amount is recomputed |
| Mileages.CreateThenRemove | src/mileages/mileages.service.ts:23-173 | creating then removing an entry restores the store |
| Mileages.ZeroRateKept | src/mileages/mileages.service.ts:30-33 | an explicit rate of 0 is kept (`??`), so the amount is 0 |
| Mileages.NullRateRejected | src/mileages/mileages.service.ts:30-42 | with no rate supplied and a null user rate, creating an entry fails and the store is left unchanged |
| Ledger.ClaimableCountFull | src/invoices/invoices.service.ts:37-60 | the count test on the records found for a list of ids passes exactly when the ids are distinct, and each is an existing, owned, unflagged record |
| Ledger.SetFlags | src/invoices/invoices.service.ts:110-118 | a bulk flag write changes the flag of exactly the listed existing records and nothing else |
| Ledger.Found | src/invoices/invoices.service.ts:294-304 | the rows found for a list of ids are the existing listed ids, each once |
| Ledger.SumSetFlags | src/invoices/invoices.service.ts:67-82 | flag writes do not change any total |
| Ledger.FlaggedIffOneHolder | src/shifts/entities/shift.entity.ts:70-71 | under the ledger invariant, a record is flagged exactly when one invoice holds it |
| Invoices.InvoiceNumberFormat | src/invoices/invoices.service.ts:63-64 | a number is "INV-", at most four leading characters of the user id, "-", and at least four digits whose value is the sequence number |
| Invoices.Create | src/invoices/invoices.service.ts:32-121 | NotFound unless the client is the caller's; BadRequest with no write unless every requested shift and mileage is distinct, owned and unflagged; on success a draft holding exactly the requested ids, every one of them flagged, with totals summed over them, number count+1, issue date supplied-or-now, and due date (supplied-or-now) + 30 days |
| Invoices.Update | src/invoices/invoices.service.ts:179-336 | NotFound for a missing or foreign invoice, BadRequest for a paid one; dates and status change only when truthy, the notes and payment notes whenever sent, with `null` clearing them; with an id list, added ids must be claimable or nothing is written, dropped ids are released, and the members afterwards are the new lists as sets, with recomputed totals |
| Invoices.Relist | src/invoices/invoices.service.ts:218-261 | the list half of an update succeeds exactly when the records added of both kinds are distinct, owned and unflagged; otherwise BadRequest before any write; on success the store is the one Invoices.Claim writes |
| Invoices.Claim | src/invoices/invoices.service.ts:263-331 | only the invoice and the two record maps change; the invoice keeps every field but its members and totals; its members are the listed ids that have a row, each once; a record the new list drops is released and one it adds is flagged; the totals equal the sums over the new members |
| Invoices.Rewire | src/invoices/invoices.service.ts:263-302 | for one kind of record: dropped records are released, added ones flagged, all others unchanged, and the members are the wanted ids that have a row, each once |
| Invoices.MarkAsPaid | src/invoices/invoices.service.ts:338-355 | NotFound exactly for a missing or foreign invoice; otherwise Paid from any status, payment notes replaced when sent and cleared when `null`, and nothing else changed |
| Invoices.UploadPaymentProof | src/invoices/invoices.service.ts:357-396 | forces Paid and records the file name id + "_payment_proof" + ext; the caller's files lose the previous proof, if any, and gain the new one, and nothing else changes |
| Invoices.GetPaymentProof | src/invoices/invoices.service.ts:398-421 | returns the stored name exactly when the invoice is the caller's, names a proof, and the file exists; otherwise NotFound |
| Invoices.Remove | src/invoices/invoices.service.ts:423-466 | NotFound for missing or foreign, BadRequest for sent or paid; otherwise that invoice alone is deleted, its members are unflagged and its proof file is deleted |
| InvoiceFacts.MarkAsPaidIdempotent | src/invoices/invoices.service.ts:338-355 | marking paid again succeeds and changes nothing |
| InvoiceFacts.UploadThenGet | src/invoices/invoices.service.ts:373-420 | after an upload the proof is read back under the name it was stored with |
| InvoiceFacts.UploadKeepsOtherProofs | src/invoices/invoices.service.ts:373-420 | an upload leaves every other invoice's proof lookup unchanged unless that invoice names the replaced or the new file |
| InvoiceFacts.NumberDeterminesSequence | src/invoices/invoices.service.ts:63-64 | for one user, equal numbers mean equal sequence values |
| InvoiceFacts.RemoveLowersCount | src/invoices/invoices.service.ts:63-64 | deleting one of a user's invoices lowers that user's invoice count by one |
| InvoiceFacts.NumberReusedAfterRemove | src/invoices/invoices.service.ts:63-64 | after deleting an older invoice, the next create reissues the number of the newest one |
| InvoiceFacts.DueDateShifted | src/invoices/invoices.service.ts:85-87 | a supplied due date is moved 30 days later; without one the due date is now + 30 days, not issue date + 30 days |
| InvoiceFacts.ClaimsOtherClientsShift | src/invoices/invoices.service.ts:37-47 | create claims a shift that belongs to a different client than the invoice's |
| LedgerProofs.CreateKeepsValid | src/invoices/invoices.service.ts:32-121 | create preserves both invariants |
| LedgerProofs.CreateKeepsLedger | src/invoices/invoices.service.ts:37-118 | create preserves "flagged iff held by exactly one invoice" for shifts and mileages |
| LedgerProofs.CreateKeepsTotals | src/invoices/invoices.service.ts:67-82 | create preserves "totals equal member sums" |
| LedgerProofs.UpdateKeepsValid | src/invoices/invoices.service.ts:179-336 | update preserves both invariants |
| LedgerProofs.UpdateKeepsLedger | src/invoices/invoices.service.ts:218-291 | update's diffing preserves the claim ledger |
| LedgerProofs.UpdateListsKeepLedger | src/invoices/invoices.service.ts:227-291 | an update that replaces a member list releases the dropped records and flags the added ones, keeping the claim ledger |
| LedgerProofs.UpdateKeepsTotals | src/invoices/invoices.service.ts:293-331 | update preserves the totals invariant |
| LedgerProofs.MarkAsPaidKeepsValid | src/invoices/invoices.service.ts:338-355 | marking paid preserves both invariants |
| LedgerProofs.UploadKeepsValid | src/invoices/invoices.service.ts:357-396 | uploading a proof preserves both invariants |
| LedgerProofs.RemoveKeepsValid | src/invoices/invoices.service.ts:423-466 | remove preserves both invariants |
| LedgerProofs.RemoveKeepsLedger | src/invoices/invoices.service.ts:438-455 | releasing every member of the deleted invoice keeps "flagged iff held by exactly one invoice" |
| LedgerProofs.RemoveKeepsTotals | src/invoices/invoices.service.ts:423-466 | the invoices that remain still carry totals equal to their member sums |
| LedgerProofs.OneInvoiceWritten | src/invoices/invoices.service.ts:338-355 | a write to one invoice that keeps every record's data and leaves that invoice's totals consistent keeps the totals invariant for all invoices |
| LedgerProofs.Reassign | src/invoices/invoices.service.ts:227-291 | replacing one invoice's member list with a duplicate-free list of existing records, whose newcomers were unflagged, and setting the flags accordingly keeps the ledger |
| LedgerProofs.UnflaggedUnheld | src/invoices/invoices.service.ts:37-43 | under the ledger, an unflagged record is held by no invoice |
| LedgerProofs.EditUnflagged | src/shifts/shifts.service.ts:137-209 | creating, editing or deleting one unflagged record keeps the ledger and leaves every invoice's member data unchanged |
| LedgerProofs.ShiftServiceKeepsValid | src/shifts/shifts.service.ts:23-210 | shift create, update and remove preserve both invariants |
| LedgerProofs.MileageServiceKeepsValid | src/mileages/mileages.service.ts:23-173 | mileage create, update and remove preserve both invariants |
| Folds.Partition | src/dashboard/dashboard.service.ts:111-118 | bucket sums and sizes over distinct keys add up to the sum and size of the rows those keys cover |
| Folds.SumSplit | src/dashboard/dashboard.service.ts:86-90 | a sum splits into the sums over the rows that pass and the rows that fail a filter |
| Dashboard.DateRange | src/dashboard/dashboard.service.ts:31-40 | the custom range is used only when both dates are supplied; otherwise the time frame's range |
| Dashboard.Select | src/dashboard/dashboard.service.ts:43-77 | a row is selected exactly when it is the caller's, matches the client filter when one is given, and its date is within the range (inclusive) |
| Dashboard.ClientSummaries | src/dashboard/dashboard.service.ts:93-105 | one row per listed client in list order, each summing only that client's rows; earnings without HST |
| Dashboard.PeriodSummaries | src/dashboard/dashboard.service.ts:180-215 | one row per generated key in order, each summing the rows whose key is that key |
| Dashboard.StatusSummaries | src/dashboard/dashboard.service.ts:111-118 | one row per status in order, holding the count and grand-total sum of that status's invoices |
| Dashboard.Visits | src/dashboard/dashboard.service.ts:239-261 | the instants visited from the start while it is not after the end, each the step of the previous one; the step after the last passes the end |
| Dashboard.PeriodKeysOfVisits | src/dashboard/dashboard.service.ts:242-262 | the keys are the period keys of the visited instants, one per instant and in the same order |
| Dashboard.GenerateAllPeriodKeys | src/dashboard/dashboard.service.ts:237-264 | one key per visited instant in order; start ≤ end gives at least one key, beginning with the start's key, and start > end gives none |
| Dashboard.ConstantStepCount | src/dashboard/dashboard.service.ts:245-260 | with a fixed step d, the number n of keys satisfies start + (n−1)·d ≤ end < start + n·d |
| Dashboard.Summarize | src/dashboard/dashboard.service.ts:79-130 | hours, earnings and HST are sums over the selected shifts, distance and amount over the selected mileage entries, invoiced over the selected invoices and paid over the paid ones; the status table is the five status rows in enum order, each with its invoices' count and grand-total sum; the client table has one row per selected client in order, summing that client's records; the period table has one row per generated key in order, summing the records with that key, as many as the visited instants; paid + unpaid = invoiced |
| Dashboard.GetDashboardSummary | src/dashboard/dashboard.service.ts:25-130 | over the rows the queries select in the custom range (both dates given) or the time frame's: every total is the sum over those rows, the status, client and period tables hold the per-status, per-client and per-key sums in order, one period row per visited instant of that range, and paid + unpaid = invoiced |
| Dashboard.ShiftAdded | src/dashboard/dashboard.service.ts:43-84 | one more stored shift raises the hour, earnings and HST totals by its own values exactly when it is the caller's, matches the client filter and starts in the range; the other totals stay |
| Dashboard.StatusRowsAddUp | src/dashboard/dashboard.service.ts:86-118 | the status counts add up to the number of invoices and their totals to totalInvoiced; the paid row is totalPaid and the other four add up to totalUnpaid |
| Dashboard.ClientRowsAddUp | src/dashboard/dashboard.service.ts:80-105 | when every row's client is listed once, the client columns add up to the overall hours, earnings, mileage and mileage amount |
| Dashboard.PeriodRowsAddUp | src/dashboard/dashboard.service.ts:180-215 | with distinct keys, the period columns add up to the sums over rows whose key is generated, and to the overall hours and earnings when every shift's key is generated |
| Dashboard.EmptyPeriodIsZero | src/dashboard/dashboard.service.ts:204-214 | a key no row falls in gets an all-zero row |
| Auth.Expiry | src/auth/auth.service.ts:137-147 | now plus n days, hours or minutes for a final d, h or m, where n is the leading integer; now for any other ending; an invalid date when no number can be read |
| Auth.ParseInt | src/auth/auth.service.ts:142-146 | after leading white space and an optional sign, a number exactly when a digit follows; its value is the longest digit run read in base 10, negated under a minus sign |
| Auth.SkippedAreSpaces | src/auth/auth.service.ts:142-146 | every character skipped before the sign and digits is white space |
| Auth.SaveRefreshToken | src/auth/auth.service.ts:137-156 | appends exactly one unrevoked row for the user with that expiry |
| Auth.Register | src/auth/auth.service.ts:25-48 | BadRequest with nothing written exactly when the e-mail is taken; otherwise one account and one refresh-token row are added |
| Auth.Login | src/auth/auth.service.ts:50-76 | the same Unauthorized for an unknown e-mail and a wrong password; success adds exactly one token row for that user |
| Auth.RegisterThenLogin | src/auth/auth.service.ts:25-76 | a new account logs in with a password matching its hash, as itself, leaving two rows of its own; registering the address again is BadRequest |
| Auth.LoginThenRefresh | src/auth/auth.service.ts:50-92 | a refresh token handed out by login and carried by no earlier row is redeemed for the same user at any instant up to its expiry |
| Auth.Refresh | src/auth/auth.service.ts:78-101 | Unauthorized for an unknown or revoked token or one whose expiry is before now; otherwise that row is revoked and one unrevoked row is saved for the same user |
| Auth.Logout | src/auth/auth.service.ts:103-111 | revokes the first row matching both the token and the user, or changes nothing |
| Auth.RedeemedOnce | src/auth/auth.service.ts:85-92 | presenting a token again after it was redeemed is Unauthorized |
| Auth.ExpiryInstantAccepted | src/auth/auth.service.ts:85 | a token is accepted at its expiry instant and refused one millisecond later |
| Auth.UnreadableLifetime | src/auth/auth.service.ts:137-142 | the lifetime "d" has no number in front of its unit, so its expiry is an invalid date |
| Auth.UnreadableLifetimeNeverExpires | src/auth/auth.service.ts:85-142 | a token saved under the lifetime "d" gets an invalid date, and the service's `now > expiresAt` test never rejects it |
| Auth.LogoutOthersNoop | src/auth/auth.service.ts:103-111 | logging out with another user's token revokes nothing |
| Auth.ParseRendered | src/auth/auth.service.ts:142-146 | the leading integer of a rendered number followed by a unit is that number |
| Auth.DefaultLifetime | src/auth/auth.service.ts:138 | the default lifetime "7d" expires seven days after now |
| Auth.ExpiryOfRendered | src/auth/auth.service.ts:141-147 | "<n>d", "<n>h" and "<n>m" expire exactly n days, hours or minutes after now |
| Logger.IndexOf | src/common/services/logger.service.ts:75-76 | the first position of the level in the list, or −1 exactly when it is absent |
| Logger.WriteLog | src/common/services/logger.service.ts:57-71 | nothing is written exactly when the filter rejects the level; otherwise the file gets the entry and a new line, and the console gets it in the level's colour |
| Logger.ShouldLog | src/common/services/logger.service.ts:73-79 | a level missing from the list always passes (index −1); a listed level never passes when the configured level is missing from the list |
| Logger.FilterByRank | src/common/services/logger.service.ts:73-79 | level L passes under configured level M exactly when L is at least as severe as M |
| Logger.FilterMonotone | src/common/services/logger.service.ts:74-78 | if a level passes, every more severe level passes |
| Logger.ErrorsAlwaysPass | src/common/services/logger.service.ts:74-78 | error passes under every recognised configured level |
| Logger.UnknownConfigSilences | src/common/services/logger.service.ts:76-78 | an unrecognised configured level suppresses all five levels |
| Logger.DefaultPassesUpToInfo | src/common/services/logger.service.ts:15-79 | with nothing configured, error, warn and info pass and debug and verbose do not |
| Logger.New | src/common/services/logger.service.ts:14-15 | the configured level is LOG_LEVEL when set, else info |
| Logger.ContextOf | src/common/services/logger.service.ts:61 | the context is never empty: the argument if non-empty, else the set context if non-empty, else "Application" |
| Logger.ContextAfterSet | src/common/services/logger.service.ts:33-61 | after setContext, lines carry the call's context when given, else the one set |
| Logger.TraceOnlyWhenPresent | src/common/services/logger.service.ts:62 | an empty trace adds nothing; a non-empty one follows the message after a new line |
| Logger.LevelTag | src/common/services/logger.service.ts:62 | each level's tag in a line is its name in capitals: ERROR, WARN, INFO, DEBUG, VERBOSE |
| Logger.MethodLevels | src/common/services/logger.service.ts:37-55 | log, error, warn, debug and verbose write exactly when info, error, warn, debug and verbose respectively pass the filter |
| Logger.MethodLines | src/common/services/logger.service.ts:37-43 | log's file line is an entry at level info with no trace; error's is an entry at level error carrying the given trace |
| Logger.ErrorsAlwaysWritten | src/common/services/logger.service.ts:41-79 | under a recognised configured level, error always writes |

## Left out

- Controllers, modules, DTO validation, `main.ts` and Swagger: routing and dependency injection, no logic to model.
- The exports service (PDF and Excel rendering) and the seeds service (random development data written directly to the tables).
- `findAll` query builders and pagination: SQL-side filtering and ordering.
- JWT signing and bcrypt: tokens and password hashes arrive as values, and the bcrypt comparison is a function parameter. For a refresh, the new token is a value, so token strings are compared as given.
- The file system: payment-proof files are an abstract set of (user, file name) pairs; directory creation and paths are not modelled.
- Calendar arithmetic: the period-key function and the step to the next period are parameters, and the step only has to be increasing. The time-frame ranges (`getDateRangeFromTimeFrame`) are a parameter.
- Dashboard.PeriodRowsAddUp: requires distinct generated keys, because ISO 8601 week keys can repeat near New Year, and then a row is counted once per repeated key.
- Dashboard.ClientRowsAddUp: requires every record's client to be listed once; the source's client list comes from the same user's table, which the model does not tie to the records.
- Floating point: money and hours are exact reals; `decimal(10,2)` rounding on save and `Number(...)` conversions are not modelled.
- Time zones and daylight saving: a day is 86 400 000 ms, so "+30 days" and "+n days" are fixed millisecond offsets.
- Concurrency: the check-then-write race when claiming records and the `count + 1` numbering race; the model is sequential.
- Cascade deletes declared on the entities, and the database's row order: a lookup by token takes the first matching row.
- Auth.Expiry: `parseInt` is modelled for decimal digits after white space and an optional sign; the hexadecimal `0x` prefix and white space other than space, tab, new line and carriage return are not. The invalid date (`None`) is the in-memory value: whether it survives `save` unchanged depends on the database driver (PostgreSQL or SQLite, src/app.module.ts lines 45 to 62), so Auth.UnreadableLifetimeNeverExpires describes the service's comparison, not a stored row read back.
- Logger: the log-file set-up and the console/file writes are not modelled; `WriteLog` returns the two strings instead, and the timestamp is a parameter.
- Shifts.Update: when both useCurrentLocation and a foreign clientId are given, the source fails in the location lookup before the client check; both paths are NotFound with no write, so the model checks the client once.
- Mileages.Create: the database's refusal of a null rate (a server error from `save`) is the `StorageRejected` error; the error's message and status code are not modelled.
- Auth.ParseInt: the same limits as Auth.Expiry: decimal digits only, no `0x` prefix, and only space, tab, new line and carriage return count as leading white space.
- Clients.Update, Shifts.Update, Mileages.Update: a `null` client id is taken to drop out of the ownership lookup's `where` clause, as TypeORM does by default, so the lookup finds any of the caller's clients; the save then fails on the NOT NULL client id. A TypeORM configured to reject null conditions would fail earlier, with nothing written either way.

=== FILE: auth.dfy ===
/**
 * Registration, login and refresh-token rotation. Password hashing, password
 * checking and token signing are outside the model: a hash and freshly signed
 * tokens arrive as values, the bcrypt comparison as a function.
 */
module Auth {
  import opened Wrappers
  import opened Entities
  import opened Decimal

  const MillisPerMinute: int := 60_000

  /** The refresh lifetime used when none is configured. */
  const DefaultRefreshExpiration: string := "7d"

  /** A user as the login path sees it. */
  datatype Account = Account(id: Id, passwordHash: string)

  /**
   * A stored refresh token. An expiry of `None` is an invalid date: the
   * lifetime's number could not be read.
   */
  datatype TokenRow = TokenRow(token: string, userId: Id, expiresAt: Option<Instant>, isRevoked: bool)

  /** Accounts by e-mail address, and the token rows in storage order. */
  datatype AuthStore = AuthStore(users: map<string, Account>, tokens: seq<TokenRow>)

  /** What a successful register, login or refresh hands back. */
  datatype Session = Session(userId: Id, accessToken: string, refreshToken: string)

  predicate IsSpace(c: char) {
    c == ' ' || c == '\t' || c == '\n' || c == '\r'
  }

  /** The number of white-space characters `s` starts with. */
  function LeadingSpaces(s: string): (k: nat)
    ensures k <= |s|
    ensures k < |s| ==> !IsSpace(s[k])
  {
    if |s| > 0 && IsSpace(s[0]) then 1 + LeadingSpaces(s[1..]) else 0
  }

  /** Every character `LeadingSpaces` skips is white space. */
  lemma {:induction false} SkippedAreSpaces(s: string)
    ensures forall i :: 0 <= i < LeadingSpaces(s) ==> IsSpace(s[i])
  {
    if |s| > 0 && IsSpace(s[0]) {
      SkippedAreSpaces(s[1..]);
      forall i | 0 <= i < LeadingSpaces(s)
        ensures IsSpace(s[i])
      {
        if i > 0 {
          assert s[i] == s[1..][i - 1];
        }
      }
    }
  }

  /** `s` without its leading white space. */
  function TrimStart(s: string): string {
    s[LeadingSpaces(s)..]
  }

  /** The longest run of decimal digits that `s` starts with. */
  function DigitPrefix(s: string): (r: string)
    ensures r <= s && AllDigits(r)
    ensures |r| < |s| ==> !IsDigit(s[|r|])
  {
    if |s| == 0 || !IsDigit(s[0]) then [] else [s[0]] + DigitPrefix(s[1..])
  }

  /** The value of the digits `u` starts with; none at all is NaN, here `None`. */
  function ReadDigits(u: string): (r: Option<int>)
    ensures r.Some? <==> |u| > 0 && IsDigit(u[0])
  {
    var digits := DigitPrefix(u);
    if |digits| == 0 then None else Some(Value(digits))
  }

  /** After its leading white space, `s` starts with a minus sign. */
  predicate Negative(s: string) {
    var t := TrimStart(s);
    |t| > 0 && t[0] == '-'
  }

  /** What follows the leading white space and at most one sign. */
  function Unsigned(s: string): string {
    var t := TrimStart(s);
    if |t| > 0 && (t[0] == '-' || t[0] == '+') then t[1..] else t
  }

  /**
   * `parseInt(s)`: white space, an optional sign, then the leading decimal
   * digits; no digits at all is NaN, here `None`.
   */
  function ParseInt(s: string): (r: Option<int>)
    ensures r.Some? <==> |Unsigned(s)| > 0 && IsDigit(Unsigned(s)[0])
    ensures r.Some? && Negative(s) ==> r.value + Value(DigitPrefix(Unsigned(s))) == 0
    ensures r.Some? && !Negative(s) ==> r.value == Value(DigitPrefix(Unsigned(s)))
  {
    var v := ReadDigits(Unsigned(s));
    if v.None? then None else if Negative(s) then Some(-v.value) else v
  }

  /** `s.endsWith(c)`. */
  predicate EndsWith(s: string, c: char) {
    |s| > 0 && s[|s| - 1] == c
  }

  /**
   * The expiry of a refresh token saved at `now` under the configured lifetime:
   * `now` plus the leading number of days, hours or minutes for a final `d`, `h`
   * or `m`; `now` itself for any other ending; an invalid date when the number is missing.
   */
  function Expiry(expiresIn: string, now: Instant): (r: Option<Instant>)
    ensures var n := ParseInt(expiresIn);
      && (!EndsWith(expiresIn, 'd') && !EndsWith(expiresIn, 'h') && !EndsWith(expiresIn, 'm') ==> r == Some(now))
      && (EndsWith(expiresIn, 'd') || EndsWith(expiresIn, 'h') || EndsWith(expiresIn, 'm') ==> (r.None? <==> n.None?))
      && (EndsWith(expiresIn, 'd') && n.Some? ==> r == Some(now + n.value * MillisPerDay))
      && (EndsWith(expiresIn, 'h') && n.Some? ==> r == Some(now + n.value * MillisPerHour))
      && (EndsWith(expiresIn, 'm') && n.Some? ==> r == Some(now + n.value * MillisPerMinute))
  {
    var n := ParseInt(expiresIn);
    if EndsWith(expiresIn, 'd') then (if n.None? then None else Some(now + n.value * MillisPerDay))
    else if EndsWith(expiresIn, 'h') then (if n.None? then None else Some(now + n.value * MillisPerHour))
    else if EndsWith(expiresIn, 'm') then (if n.None? then None else Some(now + n.value * MillisPerMinute))
    else Some(now)
  }

  /** `saveRefreshToken`: appends one unrevoked row for `userId`. */
  function SaveRefreshToken(tokens: seq<TokenRow>, userId: Id, token: string, expiresIn: string, now: Instant)
    : (r: seq<TokenRow>)
    ensures |r| == |tokens| + 1 && r[..|tokens|] == tokens
    ensures r[|tokens|] == TokenRow(token, userId, Expiry(expiresIn, now), false)
  {
    tokens + [TokenRow(token, userId, Expiry(expiresIn, now), false)]
  }

  /**
   * Creates an account for a new e-mail address and stores its first refresh
   * token; a taken address is BadRequest and nothing is written.
   */
  function Register(s: AuthStore, email: string, passwordHash: string, newUserId: Id,
                    accessToken: string, refreshToken: string, expiresIn: string, now: Instant)
    : (r: Result<(AuthStore, Session)>)
    ensures r.Err? <==> email in s.users
    ensures r.Err? ==> r.error == BadRequest
    ensures r.Ok? ==>
      && r.value.0.users == s.users[email := Account(newUserId, passwordHash)]
      && r.value.0.tokens == SaveRefreshToken(s.tokens, newUserId, refreshToken, expiresIn, now)
      && r.value.1 == Session(newUserId, accessToken, refreshToken)
  {
    if email in s.users then Err(BadRequest)
    else
      var users := s.users[email := Account(newUserId, passwordHash)];
      Ok((AuthStore(users, SaveRefreshToken(s.tokens, newUserId, refreshToken, expiresIn, now)),
          Session(newUserId, accessToken, refreshToken)))
  }

  /**
   * Checks the password with `matches` (bcrypt's compare) and stores one new
   * refresh token. An unknown address and a wrong password fail alike.
   */
  function Login(s: AuthStore, email: string, password: string, matches: (string, string) -> bool,
                 accessToken: string, refreshToken: string, expiresIn: string, now: Instant)
    : (r: Result<(AuthStore, Session)>)
    ensures r.Err? <==> email !in s.users || !matches(password, s.users[email].passwordHash)
    ensures r.Err? ==> r.error == Unauthorized
    ensures r.Ok? ==>
      && r.value.0.users == s.users
      && r.value.0.tokens == SaveRefreshToken(s.tokens, s.users[email].id, refreshToken, expiresIn, now)
      && r.value.1 == Session(s.users[email].id, accessToken, refreshToken)
  {
    if email !in s.users then Err(Unauthorized)
    else if !matches(password, s.users[email].passwordHash) then Err(Unauthorized)
    else
      var user := s.users[email];
      Ok((s.(tokens := SaveRefreshToken(s.tokens, user.id, refreshToken, expiresIn, now)),
          Session(user.id, accessToken, refreshToken)))
  }

  /** The position of the first row satisfying `p`, as `findOne` returns it. */
  function FindFirst(tokens: seq<TokenRow>, p: TokenRow -> bool): (r: Option<nat>)
    ensures r.Some? ==> r.value < |tokens| && p(tokens[r.value])
    ensures r.Some? ==> forall i :: 0 <= i < r.value ==> !p(tokens[i])
    ensures r.None? ==> forall i :: 0 <= i < |tokens| ==> !p(tokens[i])
  {
    if |tokens| == 0 then None
    else if p(tokens[0]) then Some(0)
    else match FindFirst(tokens[1..], p)
      case None => None
      case Some(i) => Some(i + 1)
  }

  /** `{ isRevoked: true }` on row `i`. */
  function Revoke(tokens: seq<TokenRow>, i: nat): (r: seq<TokenRow>)
    requires i < |tokens|
    ensures |r| == |tokens| && r[i] == tokens[i].(isRevoked := true)
    ensures forall j :: 0 <= j < |tokens| && j != i ==> r[j] == tokens[j]
  {
    tokens[i := tokens[i].(isRevoked := true)]
  }

  /** A row may be redeemed at `now`: not revoked, and `now` is not after a valid expiry. */
  predicate Redeemable(row: TokenRow, now: Instant) {
    !row.isRevoked && (row.expiresAt.Some? ==> now <= row.expiresAt.value)
  }

  /**
   * Rotates the presented refresh token: its row (the first with that token)
   * must exist, be unrevoked and unexpired, else Unauthorized; it is revoked and
   * one new token is stored for the same user.
   */
  function Refresh(s: AuthStore, presented: string, accessToken: string, refreshToken: string,
                   expiresIn: string, now: Instant): (r: Result<(AuthStore, Session)>)
    ensures var found := FindFirst(s.tokens, (row: TokenRow) => row.token == presented);
      r.Ok? <==> found.Some? && Redeemable(s.tokens[found.value], now)
    ensures r.Err? ==> r.error == Unauthorized
    ensures r.Ok? ==>
      var i := FindFirst(s.tokens, (row: TokenRow) => row.token == presented).value;
      && r.value.0.users == s.users
      && r.value.0.tokens == SaveRefreshToken(Revoke(s.tokens, i), s.tokens[i].userId, refreshToken, expiresIn, now)
      && r.value.1 == Session(s.tokens[i].userId, accessToken, refreshToken)
  {
    match FindFirst(s.tokens, (row: TokenRow) => row.token == presented)
    case None => Err(Unauthorized)
    case Some(i) =>
      var row := s.tokens[i];
      if row.isRevoked || (row.expiresAt.Some? && now > row.expiresAt.value) then Err(Unauthorized)
      else
        Ok((s.(tokens := SaveRefreshToken(Revoke(s.tokens, i), row.userId, refreshToken, expiresIn, now)),
            Session(row.userId, accessToken, refreshToken)))
  }

  /** Revokes the caller's row for this token, if there is one; otherwise nothing changes. */
  function Logout(s: AuthStore, userId: Id, token: string): (r: AuthStore)
    ensures r.users == s.users && |r.tokens| == |s.tokens|
    ensures var found := FindFirst(s.tokens, (row: TokenRow) => row.token == token && row.userId == userId);
      && (found.None? ==> r == s)
      && (found.Some? ==> r.tokens == Revoke(s.tokens, found.value))
  {
    match FindFirst(s.tokens, (row: TokenRow) => row.token == token && row.userId == userId)
    case None => s
    case Some(i) => s.(tokens := Revoke(s.tokens, i))
  }

  /**
   * A newly registered account can log in with any password that matches the
   * hash it was registered with; the login adds one more row for that account.
   * The same address cannot be registered twice.
   */
  lemma RegisterThenLogin(s: AuthStore, email: string, passwordHash: string, newUserId: Id,
                          access1: string, refresh1: string, expiresIn: string, now1: Instant,
                          password: string, matches: (string, string) -> bool,
                          access2: string, refresh2: string, now2: Instant)
    requires email !in s.users
    requires matches(password, passwordHash)
    ensures Register(s, email, passwordHash, newUserId, access1, refresh1, expiresIn, now1).Ok?
    ensures var s1 := Register(s, email, passwordHash, newUserId, access1, refresh1, expiresIn, now1).value.0;
      var l := Login(s1, email, password, matches, access2, refresh2, expiresIn, now2);
      && l.Ok? && l.value.1.userId == newUserId
      && |l.value.0.tokens| == |s.tokens| + 2
      && l.value.0.tokens[|s.tokens|].userId == newUserId
      && l.value.0.tokens[|s.tokens| + 1].userId == newUserId
      && l.value.0.tokens[|s.tokens| + 1].token == refresh2
    ensures var s1 := Register(s, email, passwordHash, newUserId, access1, refresh1, expiresIn, now1).value.0;
      Register(s1, email, passwordHash, newUserId, access2, refresh2, expiresIn, now2) == Err(BadRequest)
  {
  }

  /**
   * A refresh token handed out by login, if no earlier row carries the same
   * token, can be redeemed for the same user until its expiry.
   */
  lemma LoginThenRefresh(s: AuthStore, email: string, password: string, matches: (string, string) -> bool,
                         access1: string, refresh1: string, expiresIn: string, now: Instant,
                         access2: string, refresh2: string, later: Instant)
    requires Login(s, email, password, matches, access1, refresh1, expiresIn, now).Ok?
    requires forall i :: 0 <= i < |s.tokens| ==> s.tokens[i].token != refresh1
    requires Expiry(expiresIn, now).None? || later <= Expiry(expiresIn, now).value
    ensures var s1 := Login(s, email, password, matches, access1, refresh1, expiresIn, now).value.0;
      var r := Refresh(s1, refresh1, access2, refresh2, expiresIn, later);
      r.Ok? && r.value.1.userId == s.users[email].id
  {
    var s1 := Login(s, email, password, matches, access1, refresh1, expiresIn, now).value.0;
    var p := (row: TokenRow) => row.token == refresh1;
    FindFirstIsFirst(s1.tokens, p, |s.tokens|);
  }

  /** Rows before the first match do not satisfy the search, so appending and revoking the match keeps it first. */
  lemma FindFirstAfterRotation(tokens: seq<TokenRow>, p: TokenRow -> bool, i: nat, extra: TokenRow)
    requires FindFirst(tokens, p) == Some(i)
    requires p(tokens[i].(isRevoked := true))
    ensures FindFirst(Revoke(tokens, i) + [extra], p) == Some(i)
  {
    var t := Revoke(tokens, i) + [extra];
    var f := FindFirst(t, p);
    assert p(t[i]);
    FindFirstIsFirst(t, p, i);
  }

  /** `FindFirst` is the least position whose row satisfies `p`. */
  lemma {:induction false} FindFirstIsFirst(tokens: seq<TokenRow>, p: TokenRow -> bool, i: nat)
    requires i < |tokens| && p(tokens[i])
    requires forall j :: 0 <= j < i ==> !p(tokens[j])
    ensures FindFirst(tokens, p) == Some(i)
  {
    if i > 0 {
      FindFirstIsFirst(tokens[1..], p, i - 1);
    }
  }

  /** A refresh token is redeemed at most once: presenting it again after a rotation fails. */
  lemma RedeemedOnce(s: AuthStore, presented: string, access1: string, refresh1: string,
                     access2: string, refresh2: string, expiresIn: string, now1: Instant, now2: Instant)
    requires Refresh(s, presented, access1, refresh1, expiresIn, now1).Ok?
    ensures Refresh(Refresh(s, presented, access1, refresh1, expiresIn, now1).value.0,
                    presented, access2, refresh2, expiresIn, now2) == Err(Unauthorized)
  {
    var p := (row: TokenRow) => row.token == presented;
    var i := FindFirst(s.tokens, p).value;
    var row := TokenRow(refresh1, s.tokens[i].userId, Expiry(expiresIn, now1), false);
    FindFirstAfterRotation(s.tokens, p, i, row);
  }

  /** A token is still accepted at the very instant it expires, and refused one millisecond later. */
  lemma ExpiryInstantAccepted(row: TokenRow, e: Instant)
    requires !row.isRevoked && row.expiresAt == Some(e)
    ensures Redeemable(row, e)
    ensures !Redeemable(row, e + 1)
  {
  }

  /** A token saved under an unreadable lifetime ("d") never expires. */
  lemma UnreadableLifetimeNeverExpires(tokens: seq<TokenRow>, userId: Id, token: string, now: Instant, later: Instant)
    ensures var row := SaveRefreshToken(tokens, userId, token, "d", now)[|tokens|];
      Redeemable(row, later)
  {
    UnreadableLifetime(now);
  }

  /** The lifetime "d" has no number, so its expiry is an invalid date. */
  lemma UnreadableLifetime(now: Instant)
    ensures Expiry("d", now) == None
  {
    assert LeadingSpaces("d") == 0;
    assert TrimStart("d") == "d";
    assert ParseInt("d") == ReadDigits("d") == None;
    assert EndsWith("d", 'd');
  }

  /** Logging out with a token of another user revokes nothing. */
  lemma LogoutOthersNoop(s: AuthStore, userId: Id, token: string)
    requires forall i :: 0 <= i < |s.tokens| && s.tokens[i].token == token ==> s.tokens[i].userId != userId
    ensures Logout(s, userId, token) == s
  {
  }

  /** A run of digits followed by a non-digit reads back as the run. */
  lemma {:induction false} DigitPrefixOf(d: string, rest: string)
    requires AllDigits(d)
    requires |rest| == 0 || !IsDigit(rest[0])
    ensures DigitPrefix(d + rest) == d
  {
    if |d| > 0 {
      assert (d + rest)[1..] == d[1..] + rest;
      DigitPrefixOf(d[1..], rest);
    } else {
      assert d + rest == rest;
    }
  }

  /** A string that starts with a digit is read from its first character on. */
  lemma ParseFromDigit(t: string)
    requires |t| > 0 && IsDigit(t[0])
    ensures ParseInt(t) == Some(Value(DigitPrefix(t)))
  {
    NoLeadingSpace(t);
    assert ParseInt(t) == ReadDigits(t);
  }

  lemma NoLeadingSpace(t: string)
    requires |t| > 0 && !IsSpace(t[0])
    ensures TrimStart(t) == t
  {
  }

  /** Digits followed by a non-digit are read as their value. */
  lemma ParseDigits(d: string, rest: string)
    requires |d| > 0 && AllDigits(d)
    requires |rest| == 0 || !IsDigit(rest[0])
    ensures ParseInt(d + rest) == Some(Value(d))
  {
    var t := d + rest;
    assert t[0] == d[0];
    ParseFromDigit(t);
    DigitPrefixOf(d, rest);
  }

  /** A lifetime written as a number and a unit is read back as that number. */
  lemma ParseRendered(n: nat, unit: char)
    requires !IsDigit(unit)
    ensures ParseInt(NatToString(n) + [unit]) == Some(n)
  {
    ParseDigits(NatToString(n), [unit]);
    ValueOfNatToString(n);
  }

  /** The default lifetime of seven days. */
  lemma DefaultLifetime(now: Instant)
    ensures Expiry(DefaultRefreshExpiration, now) == Some(now + 7 * MillisPerDay)
  {
    assert DefaultRefreshExpiration == NatToString(7) + ['d'];
    ParseRendered(7, 'd');
  }

  /** Days, hours and minutes written as `<n>d`, `<n>h`, `<n>m` expire exactly that long after `now`. */
  lemma ExpiryOfRendered(n: nat, now: Instant)
    ensures Expiry(NatToString(n) + ['d'], now) == Some(now + n * MillisPerDay)
    ensures Expiry(NatToString(n) + ['h'], now) == Some(now + n * MillisPerHour)
    ensures Expiry(NatToString(n) + ['m'], now) == Some(now + n * MillisPerMinute)
  {
    ExpiryOfRenderedUnit(n, 'd', now);
    ExpiryOfRenderedUnit(n, 'h', now);
    ExpiryOfRenderedUnit(n, 'm', now);
  }

  lemma ExpiryOfRenderedUnit(n: nat, unit: char, now: Instant)
    requires unit == 'd' || unit == 'h' || unit == 'm'
    ensures unit == 'd' ==> Expiry(NatToString(n) + [unit], now) == Some(now + n * MillisPerDay)
    ensures unit == 'h' ==> Expiry(NatToString(n) + [unit], now) == Some(now + n * MillisPerHour)
    ensures unit == 'm' ==> Expiry(NatToString(n) + [unit], now) == Some(now + n * MillisPerMinute)
  {
    var s := NatToString(n) + [unit];
    assert s[|s| - 1] == unit;
    assert EndsWith(s, unit);
    ParseRendered(n, unit);
  }
}

=== FILE: clients.dfy ===
/** The owner-scoped client store: every lookup matches both the client id and the caller. */
module Clients {
  import opened Wrappers
  import opened Entities

  /** The fields a caller supplies when creating a client. */
  datatype ClientInput = ClientInput(
    name: string,
    contactName: Option<string>,
    contactEmail: Option<string>,
    contactPhone: Option<string>,
    address: Option<string>,
    latitude: Option<real>,
    longitude: Option<real>,
    notes: Option<string>)

  /**
   * An update body, copied onto the stored client by `Object.assign`: a value
   * replaces the stored field, `null` is written as it is, a missing field is kept.
   */
  datatype ClientPatch = ClientPatch(
    name: Field<string>,
    contactName: Field<string>,
    contactEmail: Field<string>,
    contactPhone: Field<string>,
    address: Field<string>,
    latitude: Field<real>,
    longitude: Field<real>,
    notes: Field<string>)

  /** Client `id` exists and belongs to `userId`. */
  predicate Owns(clients: map<Id, Client>, userId: Id, id: Id) {
    id in clients && clients[id].userId == userId
  }

  /** The caller owns at least one client. */
  predicate OwnsAny(clients: map<Id, Client>, userId: Id) {
    exists id :: id in clients && clients[id].userId == userId
  }

  /**
   * Whether the ownership lookup for a client id carried by an update body
   * succeeds. A missing id is not looked up. A `null` id drops out of the
   * lookup's `where` clause (TypeORM skips null conditions), so the lookup then
   * finds any client of the caller.
   */
  predicate LookupPasses(clients: map<Id, Client>, userId: Id, clientId: Field<Id>) {
    match clientId
    case Absent => true
    case Null => OwnsAny(clients, userId)
    case Given(id) => Owns(clients, userId, id)
  }

  /** Stores a new client under `newId`, owned by the caller. */
  function Create(clients: map<Id, Client>, userId: Id, newId: Id, input: ClientInput): (r: map<Id, Client>)
    requires newId !in clients
    ensures r.Keys == clients.Keys + {newId}
    ensures Owns(r, userId, newId)
    ensures r[newId].name == input.name && r[newId].address == input.address
    ensures r[newId].latitude == input.latitude && r[newId].longitude == input.longitude
    ensures r[newId].contactName == input.contactName && r[newId].contactEmail == input.contactEmail
    ensures r[newId].contactPhone == input.contactPhone && r[newId].notes == input.notes
    ensures forall id :: id in clients ==> r[id] == clients[id]
  {
    clients[newId := Client(userId, input.name, input.contactName, input.contactEmail, input.contactPhone,
                            input.address, input.latitude, input.longitude, input.notes)]
  }

  /** The client with this id, if the caller owns it. */
  function FindOne(clients: map<Id, Client>, userId: Id, id: Id): (r: Result<Client>)
    ensures r.Ok? <==> Owns(clients, userId, id)
    ensures r.Ok? ==> r.value == clients[id]
    ensures r.Err? ==> r.error == NotFound
  {
    if id in clients && clients[id].userId == userId then Ok(clients[id]) else Err(NotFound)
  }

  function Patched(c: Client, patch: ClientPatch): Client {
    c.(name := patch.name.GetOr(c.name),
       contactName := Override(patch.contactName, c.contactName),
       contactEmail := Override(patch.contactEmail, c.contactEmail),
       contactPhone := Override(patch.contactPhone, c.contactPhone),
       address := Override(patch.address, c.address),
       latitude := Override(patch.latitude, c.latitude),
       longitude := Override(patch.longitude, c.longitude),
       notes := Override(patch.notes, c.notes))
  }

  /**
   * Applies `patch` to the caller's client. A missing or foreign client is
   * NotFound; a `null` name reaches the NOT NULL column and the save fails.
   * Nothing is written on either error.
   */
  function Update(clients: map<Id, Client>, userId: Id, id: Id, patch: ClientPatch): (r: Result<map<Id, Client>>)
    ensures r.Err? <==> !Owns(clients, userId, id) || patch.name.Null?
    ensures !Owns(clients, userId, id) ==> r == Err(NotFound)
    ensures Owns(clients, userId, id) && patch.name.Null? ==> r == Err(StorageRejected)
    ensures r.Ok? ==> r.value.Keys == clients.Keys
    ensures r.Ok? ==> Owns(r.value, userId, id)
    ensures r.Ok? ==> forall other :: other in clients && other != id ==> r.value[other] == clients[other]
    ensures r.Ok? ==> r.value[id].name == patch.name.GetOr(clients[id].name)
    ensures r.Ok? ==> r.value[id].address == Override(patch.address, clients[id].address)
    ensures r.Ok? ==> r.value[id].latitude == Override(patch.latitude, clients[id].latitude)
    ensures r.Ok? ==> r.value[id].longitude == Override(patch.longitude, clients[id].longitude)
    ensures r.Ok? ==>
      var c, c' := clients[id], r.value[id];
      && c'.contactName == Override(patch.contactName, c.contactName)
      && c'.contactEmail == Override(patch.contactEmail, c.contactEmail)
      && c'.contactPhone == Override(patch.contactPhone, c.contactPhone)
      && c'.notes == Override(patch.notes, c.notes)
  {
    var c :- FindOne(clients, userId, id);
    if patch.name.Null? then Err(StorageRejected)
    else Ok(clients[id := Patched(c, patch)])
  }

  /** Deletes the caller's client; a missing or foreign client is NotFound and nothing changes. */
  function Remove(clients: map<Id, Client>, userId: Id, id: Id): (r: Result<map<Id, Client>>)
    ensures r.Err? <==> !Owns(clients, userId, id)
    ensures r.Err? ==> r.error == NotFound
    ensures r.Ok? ==> r.value.Keys == clients.Keys - {id}
    ensures r.Ok? ==> forall other :: other in r.value ==> r.value[other] == clients[other]
  {
    var _ :- FindOne(clients, userId, id);
    Ok(clients - {id})
  }

  /** A created client is found by its creator and by nobody else. */
  lemma CreateThenFind(clients: map<Id, Client>, userId: Id, newId: Id, input: ClientInput, caller: Id)
    requires newId !in clients
    ensures FindOne(Create(clients, userId, newId, input), caller, newId).Ok? <==> caller == userId
  {
  }

  /** Creating a client and then removing it restores the store. */
  lemma CreateThenRemove(clients: map<Id, Client>, userId: Id, newId: Id, input: ClientInput)
    requires newId !in clients
    ensures Remove(Create(clients, userId, newId, input), userId, newId) == Ok(clients)
  {
    assert Create(clients, userId, newId, input) - {newId} == clients;
  }

  /** After a removal the client is no longer found, by anyone. */
  lemma RemoveThenFind(clients: map<Id, Client>, userId: Id, id: Id, caller: Id)
    requires Remove(clients, userId, id).Ok?
    ensures FindOne(Remove(clients, userId, id).value, caller, id) == Err(NotFound)
  {
  }

  /** After an update the owner, and only the owner, finds the client with the patched fields. */
  lemma UpdateThenFind(clients: map<Id, Client>, userId: Id, id: Id, patch: ClientPatch, caller: Id)
    requires Update(clients, userId, id, patch).Ok?
    ensures FindOne(Update(clients, userId, id, patch).value, caller, id).Ok? <==> caller == userId
    ensures caller == userId ==>
      var c := FindOne(Update(clients, userId, id, patch).value, caller, id).value;
      && c.name == patch.name.GetOr(clients[id].name)
      && c.address == Override(patch.address, clients[id].address)
      && c.notes == Override(patch.notes, clients[id].notes)
  {
  }

  /** Applying the same patch twice is the same as applying it once. */
  lemma UpdateIdempotent(clients: map<Id, Client>, userId: Id, id: Id, patch: ClientPatch)
    requires Update(clients, userId, id, patch).Ok?
    ensures Update(Update(clients, userId, id, patch).value, userId, id, patch) == Update(clients, userId, id, patch)
  {
    var once := Update(clients, userId, id, patch).value;
    assert Patched(once[id], patch) == once[id];
    assert once[id := once[id]] == once;
  }
}

=== FILE: dashboard.dfy ===
/**
 * The dashboard summary: the caller's shifts, mileage entries and invoices in a
 * date range (optionally for one client), folded into overall totals, a paid /
 * unpaid split, one row per invoice status, one per client and one per period.
 * The calendar is abstract: the range a time frame stands for, the key of a
 * period and the step to the next period are supplied by the caller.
 */
module Dashboard {
  import opened Wrappers
  import opened Entities
  import opened Seqs
  import opened Folds

  datatype TimeFrame = Day | Week | Month | Year

  /** An inclusive range of instants, as `Between(start, end)` selects. */
  datatype Range = Range(start: Instant, end: Instant)

  datatype Filter = Filter(
    timeFrame: TimeFrame,
    clientId: Option<Id>,
    startDate: Option<Instant>,
    endDate: Option<Instant>)

  /** A client row as the repository returns it. */
  datatype ClientRow = ClientRow(id: Id, client: Client)

  datatype ClientSummary = ClientSummary(
    id: Id, name: string, totalHours: real, totalEarnings: real, totalMileage: real, totalMileageAmount: real)

  datatype PeriodSummary = PeriodSummary(
    period: string, totalHours: real, totalEarnings: real, totalMileage: real, totalMileageAmount: real)

  datatype StatusSummary = StatusSummary(status: InvoiceStatus, count: nat, total: real)

  datatype Summary = Summary(
    totalHours: real,
    totalEarnings: real,
    totalHst: real,
    totalMileage: real,
    totalMileageAmount: real,
    totalInvoiced: real,
    totalPaid: real,
    totalUnpaid: real,
    clientSummaries: seq<ClientSummary>,
    periodSummaries: seq<PeriodSummary>,
    invoiceStatusSummaries: seq<StatusSummary>)

  /** The statuses in declaration order, as `Object.values(InvoiceStatus)` lists them. */
  const AllStatuses: seq<InvoiceStatus> := [Draft, Sent, Paid, Overdue, Cancelled]

  /** The custom range when both dates are given, else the range of the time frame. */
  function DateRange(filter: Filter, frameRange: Range): (r: Range)
    ensures filter.startDate.Some? && filter.endDate.Some? ==> r.start == filter.startDate.value && r.end == filter.endDate.value
    ensures filter.startDate.None? || filter.endDate.None? ==> r == frameRange
  {
    if filter.startDate.Some? && filter.endDate.Some? then Range(filter.startDate.value, filter.endDate.value)
    else frameRange
  }

  /** A row of `owner` and `client` at instant `t` passes the user, client and date conditions. */
  predicate InScope(userId: Id, clientFilter: Option<Id>, range: Range, owner: Id, client: Id, t: Instant) {
    && owner == userId
    && (Truthy(clientFilter) ==> client == clientFilter.value)
    && range.start <= t <= range.end
  }

  function ShiftHours(s: Shift): real { s.data.totalHours }
  function ShiftEarnings(s: Shift): real { s.data.earnings }
  function ShiftHst(s: Shift): real { s.data.hstAmount }
  function MileageDistance(m: Mileage): real { m.data.distance }
  function MileageAmount(m: Mileage): real { m.data.amount }
  function GrandTotal(inv: Invoice): real { inv.grandTotal }
  function StatusOf(inv: Invoice): InvoiceStatus { inv.status }
  function ShiftClient(s: Shift): Id { s.clientId }
  function MileageClient(m: Mileage): Id { m.clientId }

  /** The period a shift falls in: the key of its start. */
  function ShiftPeriod(key: Instant -> string): Shift -> string {
    (s: Shift) => key(s.data.startTime)
  }

  /** The period a mileage entry falls in: the key of its date. */
  function MileagePeriod(key: Instant -> string): Mileage -> string {
    (m: Mileage) => key(m.data.date)
  }

  /** One row per listed client, in list order; earnings are without HST. */
  function ClientSummaries(clients: seq<ClientRow>, shifts: seq<Shift>, mileages: seq<Mileage>): (r: seq<ClientSummary>)
    ensures |r| == |clients|
    ensures forall i :: 0 <= i < |clients| ==>
      && r[i].id == clients[i].id && r[i].name == clients[i].client.name
      && r[i].totalHours == SumOf(Bucket(shifts, ShiftClient, clients[i].id), ShiftHours)
      && r[i].totalEarnings == SumOf(Bucket(shifts, ShiftClient, clients[i].id), ShiftEarnings)
      && r[i].totalMileage == SumOf(Bucket(mileages, MileageClient, clients[i].id), MileageDistance)
      && r[i].totalMileageAmount == SumOf(Bucket(mileages, MileageClient, clients[i].id), MileageAmount)
  {
    if |clients| == 0 then []
    else
      var c := clients[0];
      var cs, ms := Bucket(shifts, ShiftClient, c.id), Bucket(mileages, MileageClient, c.id);
      [ClientSummary(c.id, c.client.name, SumOf(cs, ShiftHours), SumOf(cs, ShiftEarnings),
                     SumOf(ms, MileageDistance), SumOf(ms, MileageAmount))]
      + ClientSummaries(clients[1..], shifts, mileages)
  }

  /** One row per key, in key order, summing the records whose period has that key. */
  function PeriodSummaries(keys: seq<string>, key: Instant -> string, shifts: seq<Shift>, mileages: seq<Mileage>)
    : (r: seq<PeriodSummary>)
    ensures |r| == |keys|
    ensures forall i :: 0 <= i < |keys| ==>
      && r[i].period == keys[i]
      && r[i].totalHours == SumOf(Bucket(shifts, ShiftPeriod(key), keys[i]), ShiftHours)
      && r[i].totalEarnings == SumOf(Bucket(shifts, ShiftPeriod(key), keys[i]), ShiftEarnings)
      && r[i].totalMileage == SumOf(Bucket(mileages, MileagePeriod(key), keys[i]), MileageDistance)
      && r[i].totalMileageAmount == SumOf(Bucket(mileages, MileagePeriod(key), keys[i]), MileageAmount)
  {
    if |keys| == 0 then []
    else
      var ss, ms := Bucket(shifts, ShiftPeriod(key), keys[0]), Bucket(mileages, MileagePeriod(key), keys[0]);
      [PeriodSummary(keys[0], SumOf(ss, ShiftHours), SumOf(ss, ShiftEarnings),
                     SumOf(ms, MileageDistance), SumOf(ms, MileageAmount))]
      + PeriodSummaries(keys[1..], key, shifts, mileages)
  }

  /** One row per status of `statuses`, with the count and grand-total sum of its invoices. */
  function StatusSummaries(statuses: seq<InvoiceStatus>, invoices: seq<Invoice>): (r: seq<StatusSummary>)
    ensures |r| == |statuses|
    ensures forall i :: 0 <= i < |statuses| ==>
      r[i] == StatusSummary(statuses[i], |Bucket(invoices, StatusOf, statuses[i])|,
                            SumOf(Bucket(invoices, StatusOf, statuses[i]), GrandTotal))
  {
    if |statuses| == 0 then []
    else
      var b := Bucket(invoices, StatusOf, statuses[0]);
      [StatusSummary(statuses[0], |b|, SumOf(b, GrandTotal))] + StatusSummaries(statuses[1..], invoices)
  }

  /**
   * The instants at which period keys are taken: `start`, then one step at a
   * time while the instant is not after `end`.
   */
  function Visits(current: Instant, end: Instant, next: Instant -> Instant): (r: seq<Instant>)
    requires forall t :: next(t) > t
    ensures current > end ==> r == []
    ensures current <= end ==> |r| > 0 && r[0] == current
    ensures forall i :: 0 <= i < |r| ==> current <= r[i] <= end
    ensures forall i :: 0 <= i < |r| - 1 ==> r[i + 1] == next(r[i])
    ensures |r| > 0 ==> next(r[|r| - 1]) > end
    decreases end - current
  {
    if current > end then [] else [current] + Visits(next(current), end, next)
  }

  /** The keys `generateAllPeriodKeys` produces, one per step from `current`. */
  function PeriodKeys(current: Instant, end: Instant, key: Instant -> string, next: Instant -> Instant)
    : seq<string>
    requires forall t :: next(t) > t
    decreases end - current
  {
    if current > end then [] else [key(current)] + PeriodKeys(next(current), end, key, next)
  }

  /** The generated keys are the keys of the visited instants, in order. */
  lemma {:induction false} PeriodKeysOfVisits(current: Instant, end: Instant, key: Instant -> string,
                                              next: Instant -> Instant)
    requires forall t :: next(t) > t
    ensures var r := PeriodKeys(current, end, key, next);
      && |r| == |Visits(current, end, next)|
      && forall i :: 0 <= i < |r| ==> r[i] == key(Visits(current, end, next)[i])
    decreases end - current
  {
    if current <= end {
      PeriodKeysOfVisits(next(current), end, key, next);
    }
  }

  /** The loop of `generateAllPeriodKeys`: push the current key, step, until past `end`. */
  method GenerateAllPeriodKeys(start: Instant, end: Instant, key: Instant -> string, next: Instant -> Instant)
    returns (keys: seq<string>)
    requires forall t :: next(t) > t
    ensures keys == PeriodKeys(start, end, key, next)
    ensures start <= end ==> |keys| > 0 && keys[0] == key(start)
    ensures start > end ==> keys == []
  {
    keys := [];
    var current := start;
    while current <= end
      invariant keys + PeriodKeys(current, end, key, next) == PeriodKeys(start, end, key, next)
      decreases end - current
    {
      keys := keys + [key(current)];
      current := next(current);
    }
  }

  /** The rows of the four repositories, or the rows a query returned. */
  datatype Tables = Tables(shifts: seq<Shift>, mileages: seq<Mileage>, invoices: seq<Invoice>, clients: seq<ClientRow>)

  /**
   * The four queries: the caller's shifts starting, mileage entries dated and
   * invoices issued within the range, narrowed to one client when a non-empty
   * client id is given, and the caller's clients (or just the named one).
   */
  function Select(userId: Id, filter: Filter, range: Range, db: Tables): (r: Tables)
    ensures forall s :: s in r.shifts <==>
      s in db.shifts && InScope(userId, filter.clientId, range, s.userId, s.clientId, s.data.startTime)
    ensures forall m :: m in r.mileages <==>
      m in db.mileages && InScope(userId, filter.clientId, range, m.userId, m.clientId, m.data.date)
    ensures forall inv :: inv in r.invoices <==>
      inv in db.invoices && InScope(userId, filter.clientId, range, inv.userId, inv.clientId, inv.issueDate)
    ensures forall c :: c in r.clients <==>
      c in db.clients && c.client.userId == userId && (Truthy(filter.clientId) ==> c.id == filter.clientId.value)
  {
    Tables(
      Where(db.shifts, (s: Shift) => InScope(userId, filter.clientId, range, s.userId, s.clientId, s.data.startTime)),
      Where(db.mileages, (m: Mileage) => InScope(userId, filter.clientId, range, m.userId, m.clientId, m.data.date)),
      Where(db.invoices, (inv: Invoice) => InScope(userId, filter.clientId, range, inv.userId, inv.clientId, inv.issueDate)),
      Where(db.clients, (c: ClientRow) => c.client.userId == userId && (Truthy(filter.clientId) ==> c.id == filter.clientId.value)))
  }

  /** The folds over the selected rows; periods are the keys generated over `range`. */
  function Summarize(sel: Tables, range: Range, key: Instant -> string, next: Instant -> Instant): (r: Summary)
    requires forall t :: next(t) > t
    ensures r.invoiceStatusSummaries == StatusSummaries(AllStatuses, sel.invoices)
    ensures r.clientSummaries == ClientSummaries(sel.clients, sel.shifts, sel.mileages)
    ensures r.periodSummaries == PeriodSummaries(PeriodKeys(range.start, range.end, key, next), key, sel.shifts, sel.mileages)
    ensures |r.invoiceStatusSummaries| == |AllStatuses|
    ensures |r.clientSummaries| == |sel.clients|
    ensures |r.periodSummaries| == |Visits(range.start, range.end, next)|
    ensures r.totalHours == SumOf(sel.shifts, ShiftHours) && r.totalEarnings == SumOf(sel.shifts, ShiftEarnings)
    ensures r.totalHst == SumOf(sel.shifts, ShiftHst)
    ensures r.totalMileage == SumOf(sel.mileages, MileageDistance)
    ensures r.totalMileageAmount == SumOf(sel.mileages, MileageAmount)
    ensures r.totalInvoiced == SumOf(sel.invoices, GrandTotal)
    ensures r.totalPaid == SumOf(Bucket(sel.invoices, StatusOf, Paid), GrandTotal)
    ensures r.totalPaid + r.totalUnpaid == r.totalInvoiced
  {
    PeriodKeysOfVisits(range.start, range.end, key, next);
    var invoiced := SumOf(sel.invoices, GrandTotal);
    var paid := SumOf(Bucket(sel.invoices, StatusOf, Paid), GrandTotal);
    Summary(SumOf(sel.shifts, ShiftHours), SumOf(sel.shifts, ShiftEarnings), SumOf(sel.shifts, ShiftHst),
            SumOf(sel.mileages, MileageDistance), SumOf(sel.mileages, MileageAmount),
            invoiced, paid, invoiced - paid,
            ClientSummaries(sel.clients, sel.shifts, sel.mileages),
            PeriodSummaries(PeriodKeys(range.start, range.end, key, next), key, sel.shifts, sel.mileages),
            StatusSummaries(AllStatuses, sel.invoices))
  }

  /**
   * `getDashboardSummary`: the range is the custom one or the time frame's
   * (`frameRange`, which depends on the clock), then the rows are selected and folded.
   */
  function GetDashboardSummary(userId: Id, filter: Filter, frameRange: Range,
                               key: Instant -> string, next: Instant -> Instant, db: Tables): (r: Summary)
    requires forall t :: next(t) > t
    ensures |r.invoiceStatusSummaries| == 5
    ensures forall i :: 0 <= i < 5 ==> r.invoiceStatusSummaries[i].status == AllStatuses[i]
    ensures r.totalPaid + r.totalUnpaid == r.totalInvoiced
    ensures var range := DateRange(filter, frameRange);
      var sel := Select(userId, filter, range, db);
      && r.invoiceStatusSummaries == StatusSummaries(AllStatuses, sel.invoices)
      && r.clientSummaries == ClientSummaries(sel.clients, sel.shifts, sel.mileages)
      && r.periodSummaries == PeriodSummaries(PeriodKeys(range.start, range.end, key, next), key, sel.shifts, sel.mileages)
      && |r.periodSummaries| == |Visits(range.start, range.end, next)|
    ensures filter.startDate.Some? && filter.endDate.Some? ==>
      |r.periodSummaries| == |Visits(filter.startDate.value, filter.endDate.value, next)|
    ensures var sel := Select(userId, filter, DateRange(filter, frameRange), db);
      && r.totalHours == SumOf(sel.shifts, ShiftHours) && r.totalEarnings == SumOf(sel.shifts, ShiftEarnings)
      && r.totalHst == SumOf(sel.shifts, ShiftHst)
      && r.totalMileage == SumOf(sel.mileages, MileageDistance)
      && r.totalMileageAmount == SumOf(sel.mileages, MileageAmount)
      && r.totalInvoiced == SumOf(sel.invoices, GrandTotal)
      && r.totalPaid == SumOf(Bucket(sel.invoices, StatusOf, Paid), GrandTotal)
    ensures |r.clientSummaries| == |Select(userId, filter, DateRange(filter, frameRange), db).clients|
  {
    var range := DateRange(filter, frameRange);
    Summarize(Select(userId, filter, range, db), range, key, next)
  }

  /**
   * One more shift in storage moves the hour, earnings and HST totals by its
   * own values exactly when it is the caller's, matches the client filter and
   * starts in the range; the mileage and invoice totals do not move.
   */
  lemma ShiftAdded(userId: Id, filter: Filter, frameRange: Range, key: Instant -> string,
                   next: Instant -> Instant, db: Tables, s: Shift)
    requires forall t :: next(t) > t
    ensures var before := GetDashboardSummary(userId, filter, frameRange, key, next, db);
      var after := GetDashboardSummary(userId, filter, frameRange, key, next, db.(shifts := db.shifts + [s]));
      var counted := InScope(userId, filter.clientId, DateRange(filter, frameRange), s.userId, s.clientId, s.data.startTime);
      && after.totalHours == before.totalHours + (if counted then s.data.totalHours else 0.0)
      && after.totalEarnings == before.totalEarnings + (if counted then s.data.earnings else 0.0)
      && after.totalHst == before.totalHst + (if counted then s.data.hstAmount else 0.0)
      && after.totalMileage == before.totalMileage && after.totalMileageAmount == before.totalMileageAmount
      && after.totalInvoiced == before.totalInvoiced && after.totalPaid == before.totalPaid
  {
    var range := DateRange(filter, frameRange);
    var p := (s: Shift) => InScope(userId, filter.clientId, range, s.userId, s.clientId, s.data.startTime);
    SumWhereSnoc(db.shifts, s, p, ShiftHours);
    SumWhereSnoc(db.shifts, s, p, ShiftEarnings);
    SumWhereSnoc(db.shifts, s, p, ShiftHst);
  }

  function ClientHours(c: ClientSummary): real { c.totalHours }
  function ClientEarnings(c: ClientSummary): real { c.totalEarnings }
  function ClientMileage(c: ClientSummary): real { c.totalMileage }
  function ClientMileageAmount(c: ClientSummary): real { c.totalMileageAmount }
  function PeriodHours(p: PeriodSummary): real { p.totalHours }
  function PeriodEarnings(p: PeriodSummary): real { p.totalEarnings }
  function PeriodMileage(p: PeriodSummary): real { p.totalMileage }
  function PeriodMileageAmount(p: PeriodSummary): real { p.totalMileageAmount }

  /** The ids of the client rows, in order. */
  function ClientIds(clients: seq<ClientRow>): (r: seq<Id>)
    ensures |r| == |clients| && forall i :: 0 <= i < |r| ==> r[i] == clients[i].id
  {
    if |clients| == 0 then [] else [clients[0].id] + ClientIds(clients[1..])
  }

  /** Bucketing by all five statuses, written out. */
  lemma StatusBuckets(invs: seq<Invoice>)
    ensures BucketTotal(invs, StatusOf, AllStatuses, GrandTotal)
      == SumOf(Bucket(invs, StatusOf, Draft), GrandTotal) + SumOf(Bucket(invs, StatusOf, Sent), GrandTotal)
         + SumOf(Bucket(invs, StatusOf, Paid), GrandTotal) + SumOf(Bucket(invs, StatusOf, Overdue), GrandTotal)
         + SumOf(Bucket(invs, StatusOf, Cancelled), GrandTotal)
    ensures BucketCount(invs, StatusOf, AllStatuses)
      == |Bucket(invs, StatusOf, Draft)| + |Bucket(invs, StatusOf, Sent)| + |Bucket(invs, StatusOf, Paid)|
         + |Bucket(invs, StatusOf, Overdue)| + |Bucket(invs, StatusOf, Cancelled)|
  {
    var s1, s2, s3, s4 := [Sent, Paid, Overdue, Cancelled], [Paid, Overdue, Cancelled], [Overdue, Cancelled], [Cancelled];
    assert AllStatuses[1..] == s1 && s1[1..] == s2 && s2[1..] == s3 && s3[1..] == s4 && s4[1..] == [];
    assert BucketTotal(invs, StatusOf, s4, GrandTotal) == SumOf(Bucket(invs, StatusOf, Cancelled), GrandTotal);
    assert BucketTotal(invs, StatusOf, s3, GrandTotal)
      == SumOf(Bucket(invs, StatusOf, Overdue), GrandTotal) + BucketTotal(invs, StatusOf, s4, GrandTotal);
    assert BucketTotal(invs, StatusOf, s2, GrandTotal)
      == SumOf(Bucket(invs, StatusOf, Paid), GrandTotal) + BucketTotal(invs, StatusOf, s3, GrandTotal);
    assert BucketTotal(invs, StatusOf, s1, GrandTotal)
      == SumOf(Bucket(invs, StatusOf, Sent), GrandTotal) + BucketTotal(invs, StatusOf, s2, GrandTotal);
    assert BucketCount(invs, StatusOf, s4) == |Bucket(invs, StatusOf, Cancelled)|;
    assert BucketCount(invs, StatusOf, s3) == |Bucket(invs, StatusOf, Overdue)| + BucketCount(invs, StatusOf, s4);
    assert BucketCount(invs, StatusOf, s2) == |Bucket(invs, StatusOf, Paid)| + BucketCount(invs, StatusOf, s3);
    assert BucketCount(invs, StatusOf, s1) == |Bucket(invs, StatusOf, Sent)| + BucketCount(invs, StatusOf, s2);
  }

  /** Every status is one of the five listed. */
  lemma EveryStatusListed(invs: seq<Invoice>)
    ensures forall x :: x in invs ==> StatusOf(x) in AllStatuses
  {
    forall x | x in invs
      ensures StatusOf(x) in AllStatuses
    {
      match x.status
      case Draft => assert AllStatuses[0] == Draft;
      case Sent => assert AllStatuses[1] == Sent;
      case Paid => assert AllStatuses[2] == Paid;
      case Overdue => assert AllStatuses[3] == Overdue;
      case Cancelled => assert AllStatuses[4] == Cancelled;
    }
  }

  /**
   * The status rows split the selected invoices: their counts add up to the
   * number of invoices, their totals to the invoiced total; the PAID row is the
   * paid total and the other four rows make up the unpaid total.
   */
  lemma StatusRowsAddUp(sel: Tables, range: Range, key: Instant -> string, next: Instant -> Instant)
    requires forall t :: next(t) > t
    ensures var r := Summarize(sel, range, key, next);
      var st := r.invoiceStatusSummaries;
      && st[0].count + st[1].count + st[2].count + st[3].count + st[4].count == |sel.invoices|
      && st[0].total + st[1].total + st[2].total + st[3].total + st[4].total == r.totalInvoiced
      && st[2].status == Paid && st[2].total == r.totalPaid
      && r.totalUnpaid == st[0].total + st[1].total + st[3].total + st[4].total
  {
    var invs := sel.invoices;
    assert NoDup(AllStatuses);
    EveryStatusListed(invs);
    Partition(invs, StatusOf, AllStatuses, GrandTotal);
    WithinAll(invs, StatusOf, AllStatuses);
    StatusBuckets(invs);
  }

  /** Client rows column by column: each column's sum is the bucket total over the client ids. */
  lemma {:induction false} ClientColumns(clients: seq<ClientRow>, shifts: seq<Shift>, mileages: seq<Mileage>)
    ensures var r, ids := ClientSummaries(clients, shifts, mileages), ClientIds(clients);
      && SumOf(r, ClientHours) == BucketTotal(shifts, ShiftClient, ids, ShiftHours)
      && SumOf(r, ClientEarnings) == BucketTotal(shifts, ShiftClient, ids, ShiftEarnings)
      && SumOf(r, ClientMileage) == BucketTotal(mileages, MileageClient, ids, MileageDistance)
      && SumOf(r, ClientMileageAmount) == BucketTotal(mileages, MileageClient, ids, MileageAmount)
  {
    if |clients| > 0 {
      ClientColumns(clients[1..], shifts, mileages);
      assert ClientSummaries(clients, shifts, mileages)[1..] == ClientSummaries(clients[1..], shifts, mileages);
      assert ClientIds(clients)[1..] == ClientIds(clients[1..]);
    }
  }

  /**
   * When the listed clients are distinct and every selected record belongs to one
   * of them, the client rows add up to the overall totals; in particular the
   * client earnings add up to the earnings total, which leaves HST out.
   */
  lemma ClientRowsAddUp(sel: Tables, range: Range, key: Instant -> string, next: Instant -> Instant)
    requires forall t :: next(t) > t
    requires NoDup(ClientIds(sel.clients))
    requires forall s :: s in sel.shifts ==> s.clientId in ClientIds(sel.clients)
    requires forall m :: m in sel.mileages ==> m.clientId in ClientIds(sel.clients)
    ensures var r := Summarize(sel, range, key, next);
      && SumOf(r.clientSummaries, ClientHours) == r.totalHours
      && SumOf(r.clientSummaries, ClientEarnings) == r.totalEarnings
      && SumOf(r.clientSummaries, ClientMileage) == r.totalMileage
      && SumOf(r.clientSummaries, ClientMileageAmount) == r.totalMileageAmount
  {
    var ids := ClientIds(sel.clients);
    ClientColumns(sel.clients, sel.shifts, sel.mileages);
    Partition(sel.shifts, ShiftClient, ids, ShiftHours);
    Partition(sel.shifts, ShiftClient, ids, ShiftEarnings);
    Partition(sel.mileages, MileageClient, ids, MileageDistance);
    Partition(sel.mileages, MileageClient, ids, MileageAmount);
    WithinAll(sel.shifts, ShiftClient, ids);
    WithinAll(sel.mileages, MileageClient, ids);
  }

  /** Period rows column by column: each column's sum is the bucket total over the keys. */
  lemma {:induction false} PeriodColumns(keys: seq<string>, key: Instant -> string, shifts: seq<Shift>, mileages: seq<Mileage>)
    ensures var r := PeriodSummaries(keys, key, shifts, mileages);
      && SumOf(r, PeriodHours) == BucketTotal(shifts, ShiftPeriod(key), keys, ShiftHours)
      && SumOf(r, PeriodEarnings) == BucketTotal(shifts, ShiftPeriod(key), keys, ShiftEarnings)
      && SumOf(r, PeriodMileage) == BucketTotal(mileages, MileagePeriod(key), keys, MileageDistance)
      && SumOf(r, PeriodMileageAmount) == BucketTotal(mileages, MileagePeriod(key), keys, MileageAmount)
  {
    if |keys| > 0 {
      PeriodColumns(keys[1..], key, shifts, mileages);
      assert PeriodSummaries(keys, key, shifts, mileages)[1..] == PeriodSummaries(keys[1..], key, shifts, mileages);
    }
  }

  /**
   * With distinct generated keys, the period rows add up to the sums over exactly
   * the records whose key was generated: a record with any other key is counted
   * in no row. If every record's key was generated they add up to the totals.
   */
  lemma PeriodRowsAddUp(sel: Tables, range: Range, key: Instant -> string, next: Instant -> Instant)
    requires forall t :: next(t) > t
    requires NoDup(PeriodKeys(range.start, range.end, key, next))
    ensures var r, keys := Summarize(sel, range, key, next), PeriodKeys(range.start, range.end, key, next);
      && SumOf(r.periodSummaries, PeriodHours) == SumOf(Within(sel.shifts, ShiftPeriod(key), keys), ShiftHours)
      && SumOf(r.periodSummaries, PeriodEarnings) == SumOf(Within(sel.shifts, ShiftPeriod(key), keys), ShiftEarnings)
      && SumOf(r.periodSummaries, PeriodMileage) == SumOf(Within(sel.mileages, MileagePeriod(key), keys), MileageDistance)
      && SumOf(r.periodSummaries, PeriodMileageAmount) == SumOf(Within(sel.mileages, MileagePeriod(key), keys), MileageAmount)
    ensures var r, keys := Summarize(sel, range, key, next), PeriodKeys(range.start, range.end, key, next);
      (forall s :: s in sel.shifts ==> key(s.data.startTime) in keys) ==>
        SumOf(r.periodSummaries, PeriodHours) == r.totalHours && SumOf(r.periodSummaries, PeriodEarnings) == r.totalEarnings
  {
    var keys := PeriodKeys(range.start, range.end, key, next);
    PeriodColumns(keys, key, sel.shifts, sel.mileages);
    Partition(sel.shifts, ShiftPeriod(key), keys, ShiftHours);
    Partition(sel.shifts, ShiftPeriod(key), keys, ShiftEarnings);
    Partition(sel.mileages, MileagePeriod(key), keys, MileageDistance);
    Partition(sel.mileages, MileagePeriod(key), keys, MileageAmount);
    if forall s :: s in sel.shifts ==> key(s.data.startTime) in keys {
      WithinAll(sel.shifts, ShiftPeriod(key), keys);
    }
  }

  /** A generated key that no selected record has gets a row of zeros. */
  lemma EmptyPeriodIsZero(sel: Tables, range: Range, key: Instant -> string, next: Instant -> Instant, i: nat)
    requires forall t :: next(t) > t
    requires i < |PeriodKeys(range.start, range.end, key, next)|
    requires forall s :: s in sel.shifts ==> key(s.data.startTime) != PeriodKeys(range.start, range.end, key, next)[i]
    requires forall m :: m in sel.mileages ==> key(m.data.date) != PeriodKeys(range.start, range.end, key, next)[i]
    ensures var row := Summarize(sel, range, key, next).periodSummaries[i];
      row.totalHours == 0.0 && row.totalEarnings == 0.0 && row.totalMileage == 0.0 && row.totalMileageAmount == 0.0
  {
    var k := PeriodKeys(range.start, range.end, key, next)[i];
    EmptyBucket(sel.shifts, ShiftPeriod(key), k, ShiftHours);
    EmptyBucket(sel.mileages, MileagePeriod(key), k, MileageDistance);
  }

  /**
   * With a constant step `d` the number of visited instants `n` is the one for
   * which the last visit `current + (n - 1) * d` is within the range and the next is not.
   */
  lemma {:induction false} ConstantStepCount(current: Instant, end: Instant, next: Instant -> Instant, d: int)
    requires d > 0 && forall t :: next(t) == t + d
    requires current <= end
    ensures var n := |Visits(current, end, next)|;
      n >= 1 && current + (n - 1) * d <= end < current + n * d
    decreases end - current
  {
    var n := |Visits(current, end, next)|;
    if next(current) <= end {
      ConstantStepCount(next(current), end, next, d);
      assert (n - 1) * d == (n - 2) * d + d;
      assert n * d == (n - 1) * d + d;
    }
  }
}

=== FILE: decimal.dfy ===
/** Decimal rendering of naturals: `Number.prototype.toString()` and `String.prototype.padStart`. */
module Decimal {

  predicate IsDigit(c: char) {
    '0' <= c <= '9'
  }

  predicate AllDigits(s: string) {
    forall i :: 0 <= i < |s| ==> IsDigit(s[i])
  }

  function DigitChar(d: nat): (c: char)
    requires d < 10
    ensures IsDigit(c)
  {
    (48 + d) as char
  }

  function DigitValue(c: char): (d: nat)
    requires IsDigit(c)
    ensures d < 10
  {
    (c as int) - 48
  }

  /** The number a string of decimal digits denotes (most significant digit first). */
  function Value(s: string): nat
    requires AllDigits(s)
  {
    if |s| == 0 then 0 else Value(s[..|s| - 1]) * 10 + DigitValue(s[|s| - 1])
  }

  /** `n.toString()` for a non-negative integer: shortest decimal form, no leading zero. */
  function NatToString(n: nat): (s: string)
    ensures |s| >= 1 && AllDigits(s)
    ensures |s| > 1 ==> s[0] != '0'
  {
    if n < 10 then [DigitChar(n)] else NatToString(n / 10) + [DigitChar(n % 10)]
  }

  /** `c` repeated `k` times. */
  function Repeat(c: char, k: nat): (r: string)
    ensures |r| == k
    ensures forall i :: 0 <= i < k ==> r[i] == c
  {
    if k == 0 then [] else [c] + Repeat(c, k - 1)
  }

  /** `s.padStart(width, fill)` for a one-character fill string. */
  function PadStart(s: string, width: nat, fill: char): (r: string)
    ensures |r| == if |s| >= width then |s| else width
    ensures r[|r| - |s|..] == s
    ensures forall i :: 0 <= i < |r| - |s| ==> r[i] == fill
  {
    if |s| >= width then s else Repeat(fill, width - |s|) + s
  }

  /** Rendering then reading back a natural gives the natural. */
  lemma {:induction false} ValueOfNatToString(n: nat)
    ensures Value(NatToString(n)) == n
  {
    var s := NatToString(n);
    if n >= 10 {
      ValueOfNatToString(n / 10);
      assert s[..|s| - 1] == NatToString(n / 10);
    }
  }

  /** Leading zeros do not change the value of a digit string. */
  lemma {:induction false} LeadingZeros(z: nat, s: string)
    requires AllDigits(s)
    ensures AllDigits(Repeat('0', z) + s)
    ensures Value(Repeat('0', z) + s) == Value(s)
    decreases |s|
  {
    var r := Repeat('0', z) + s;
    assert AllDigits(r);
    if |s| == 0 {
      assert r == Repeat('0', z);
      AllZeros(z);
    } else {
      var init := s[..|s| - 1];
      LeadingZeros(z, init);
      assert r[..|r| - 1] == Repeat('0', z) + init;
    }
  }

  /** A string of zeros denotes zero. */
  lemma {:induction false} AllZeros(z: nat)
    ensures AllDigits(Repeat('0', z)) && Value(Repeat('0', z)) == 0
  {
    if z > 0 {
      AllZeros(z - 1);
      var r := Repeat('0', z);
      assert r[..|r| - 1] == Repeat('0', z - 1);
    }
  }

  /** A zero-padded rendering is all digits, at least `width` long, and still denotes `n`. */
  lemma PaddedValue(n: nat, width: nat)
    ensures var r := PadStart(NatToString(n), width, '0');
      && AllDigits(r)
      && |r| >= width
      && Value(r) == n
  {
    var s := NatToString(n);
    ValueOfNatToString(n);
    if |s| < width {
      LeadingZeros(width - |s|, s);
    }
  }
}

=== FILE: entities.dfy ===
/** The persisted entities shared by the invoice, shift, mileage and client services. */
module Entities {
  import opened Wrappers

  /** Primary keys and user ids are opaque strings (UUIDs in the database). */
  type Id = string

  /** Instants are milliseconds since the epoch. */
  type Instant = int

  const MillisPerHour: int := 3_600_000
  const MillisPerDay: int := 86_400_000

  datatype Client = Client(
    userId: Id,
    name: string,
    contactName: Option<string>,
    contactEmail: Option<string>,
    contactPhone: Option<string>,
    address: Option<string>,
    latitude: Option<real>,
    longitude: Option<real>,
    notes: Option<string>)

  /** The profile fields of a user that the services read. */
  datatype UserProfile = UserProfile(hstPercentage: Option<real>, mileageRate: Option<real>)

  datatype ShiftType = Regular | Overtime | Holiday | Night | Weekend

  datatype ShiftData = ShiftData(
    startTime: Instant,
    endTime: Instant,
    shiftType: ShiftType,
    hourlyRate: real,
    totalHours: real,
    earnings: real,
    hstAmount: real,
    notes: Option<string>,
    location: Option<string>,
    latitude: Option<real>,
    longitude: Option<real>)

  datatype MileageData = MileageData(
    date: Instant,
    distance: real,
    ratePerKm: real,
    amount: real,
    description: Option<string>,
    fromLocation: Option<string>,
    toLocation: Option<string>)

  /**
   * A claimable work record: the columns shifts and mileage entries share
   * (owner, client, the invoiced flag) around the kind-specific data.
   */
  datatype Record<D> = Record(userId: Id, clientId: Id, isInvoiced: bool, data: D)

  type Shift = Record<ShiftData>
  type Mileage = Record<MileageData>

  datatype InvoiceStatus = Draft | Sent | Paid | Overdue | Cancelled

  datatype Invoice = Invoice(
    invoiceNumber: string,
    issueDate: Instant,
    dueDate: Instant,
    status: InvoiceStatus,
    hoursTotal: real,
    earningsTotal: real,
    mileageTotal: real,
    hstTotal: real,
    grandTotal: real,
    notes: Option<string>,
    paymentNotes: Option<string>,
    paymentProofFilename: Option<string>,
    userId: Id,
    clientId: Id,
    shiftIds: seq<Id>,
    mileageIds: seq<Id>)

  /** The two kinds of record an invoice claims. */
  datatype Kind = ShiftKind | MileageKind

  /** The ids of the records of kind `k` that `inv` holds. */
  function Members(inv: Invoice, k: Kind): seq<Id> {
    match k
    case ShiftKind => inv.shiftIds
    case MileageKind => inv.mileageIds
  }

  /**
   * The database state the ledger spans. `files` is the set of
   * (user directory, file name) pairs present under the uploads directory.
   */
  datatype Store = Store(
    clients: map<Id, Client>,
    shifts: map<Id, Shift>,
    mileages: map<Id, Mileage>,
    invoices: map<Id, Invoice>,
    files: set<(Id, string)>)
}

=== FILE: folds.dfy ===
/**
 * The `filter` and `reduce` folds the dashboard is built from, over exact reals,
 * and the partition fact behind its per-status, per-client and per-period tables:
 * bucket sums over distinct keys add up to the sum over the rows those keys cover.
 */
module Folds {
  import opened Seqs

  /** `xs.reduce((sum, x) => sum + f(x), 0)`. */
  function SumOf<T(!new)>(xs: seq<T>, f: T -> real): real {
    if |xs| == 0 then 0.0 else f(xs[0]) + SumOf(xs[1..], f)
  }

  /** `xs.filter(p)`: order and repetitions are kept. */
  function Where<T(!new)>(xs: seq<T>, p: T -> bool): (r: seq<T>)
    ensures |r| <= |xs|
    ensures forall x :: x in r <==> x in xs && p(x)
  {
    if |xs| == 0 then []
    else (if p(xs[0]) then [xs[0]] else []) + Where(xs[1..], p)
  }

  /** `xs.filter(x => c(x) === k)`: the rows of class `k`. */
  function Bucket<T(!new), K(==)>(xs: seq<T>, c: T -> K, k: K): (r: seq<T>)
    ensures |r| <= |xs|
    ensures forall x :: x in r <==> x in xs && c(x) == k
  {
    if |xs| == 0 then []
    else (if c(xs[0]) == k then [xs[0]] else []) + Bucket(xs[1..], c, k)
  }

  /** The rows whose class is one of `ks`. */
  function Within<T(!new), K(==)>(xs: seq<T>, c: T -> K, ks: seq<K>): (r: seq<T>)
    ensures |r| <= |xs|
    ensures forall x :: x in r <==> x in xs && c(x) in ks
  {
    if |xs| == 0 then []
    else (if c(xs[0]) in ks then [xs[0]] else []) + Within(xs[1..], c, ks)
  }

  /** The bucket sums for the keys `ks`, added up. */
  function BucketTotal<T(!new), K(==)>(xs: seq<T>, c: T -> K, ks: seq<K>, f: T -> real): real {
    if |ks| == 0 then 0.0 else SumOf(Bucket(xs, c, ks[0]), f) + BucketTotal(xs, c, ks[1..], f)
  }

  /** The bucket sizes for the keys `ks`, added up. */
  function BucketCount<T(!new), K(==)>(xs: seq<T>, c: T -> K, ks: seq<K>): nat {
    if |ks| == 0 then 0 else |Bucket(xs, c, ks[0])| + BucketCount(xs, c, ks[1..])
  }

  /** A sum over a concatenation is the sum of the sums. */
  lemma {:induction false} SumAppend<T(!new)>(a: seq<T>, b: seq<T>, f: T -> real)
    ensures SumOf(a + b, f) == SumOf(a, f) + SumOf(b, f)
  {
    if |a| > 0 {
      assert (a + b)[0] == a[0];
      assert (a + b)[1..] == a[1..] + b;
      SumAppend(a[1..], b, f);
    } else {
      assert a + b == b;
    }
  }

  /** Filtering rows with one more row at the end: that row is kept exactly when it passes. */
  lemma {:induction false} WhereSnoc<T(!new)>(xs: seq<T>, x: T, p: T -> bool)
    ensures Where(xs + [x], p) == Where(xs, p) + (if p(x) then [x] else [])
  {
    if |xs| == 0 {
      assert xs + [x] == [x];
      assert Where([x], p) == (if p(x) then [x] else []) + Where([x][1..], p);
    } else {
      assert (xs + [x])[0] == xs[0];
      assert (xs + [x])[1..] == xs[1..] + [x];
      WhereSnoc(xs[1..], x, p);
    }
  }

  /** One more row at the end adds its value to the sum of the rows that pass the filter, if it passes. */
  lemma SumWhereSnoc<T(!new)>(xs: seq<T>, x: T, p: T -> bool, f: T -> real)
    ensures SumOf(Where(xs + [x], p), f) == SumOf(Where(xs, p), f) + (if p(x) then f(x) else 0.0)
  {
    WhereSnoc(xs, x, p);
    SumAppend(Where(xs, p), if p(x) then [x] else [], f);
    if p(x) {
      assert SumOf([x], f) == f(x) + SumOf([x][1..], f);
    }
  }

  /** Splitting the rows by a predicate splits the sum. */
  lemma {:induction false} SumSplit<T(!new)>(xs: seq<T>, p: T -> bool, f: T -> real)
    ensures SumOf(xs, f) == SumOf(Where(xs, p), f) + SumOf(Where(xs, x => !p(x)), f)
  {
    if |xs| > 0 {
      SumSplit(xs[1..], p, f);
      SumAppend(if p(xs[0]) then [xs[0]] else [], Where(xs[1..], p), f);
      SumAppend(if !p(xs[0]) then [xs[0]] else [], Where(xs[1..], x => !p(x)), f);
    }
  }

  /** Over no rows every bucket is empty. */
  lemma {:induction false} BucketTotalEmpty<T(!new), K>(xs: seq<T>, c: T -> K, ks: seq<K>, f: T -> real)
    requires |xs| == 0
    ensures BucketTotal(xs, c, ks, f) == 0.0 && BucketCount(xs, c, ks) == 0
  {
    if |ks| > 0 {
      BucketTotalEmpty(xs, c, ks[1..], f);
    }
  }

  /** The first row lands in the bucket of its own class, which is counted once if its class is a key. */
  lemma {:induction false} BucketTotalStep<T(!new), K>(xs: seq<T>, c: T -> K, ks: seq<K>, f: T -> real)
    requires |xs| > 0 && NoDup(ks)
    ensures BucketTotal(xs, c, ks, f) == (if c(xs[0]) in ks then f(xs[0]) else 0.0) + BucketTotal(xs[1..], c, ks, f)
    ensures BucketCount(xs, c, ks) == (if c(xs[0]) in ks then 1 else 0) + BucketCount(xs[1..], c, ks)
  {
    if |ks| > 0 {
      assert NoDup(ks[1..]);
      BucketTotalStep(xs, c, ks[1..], f);
      SumAppend(if c(xs[0]) == ks[0] then [xs[0]] else [], Bucket(xs[1..], c, ks[0]), f);
      assert c(xs[0]) == ks[0] ==> c(xs[0]) !in ks[1..];
      assert c(xs[0]) in ks <==> c(xs[0]) == ks[0] || c(xs[0]) in ks[1..];
    }
  }

  /**
   * Bucketing by distinct keys neither loses nor doubles a covered row: the
   * bucket sums and sizes add up to the sum and size of the covered rows.
   */
  lemma {:induction false} Partition<T(!new), K>(xs: seq<T>, c: T -> K, ks: seq<K>, f: T -> real)
    requires NoDup(ks)
    ensures BucketTotal(xs, c, ks, f) == SumOf(Within(xs, c, ks), f)
    ensures BucketCount(xs, c, ks) == |Within(xs, c, ks)|
  {
    if |xs| == 0 {
      BucketTotalEmpty(xs, c, ks, f);
    } else {
      BucketTotalStep(xs, c, ks, f);
      Partition(xs[1..], c, ks, f);
      SumAppend(if c(xs[0]) in ks then [xs[0]] else [], Within(xs[1..], c, ks), f);
    }
  }

  /** When every row's class is a key, the keys cover all rows. */
  lemma {:induction false} WithinAll<T(!new), K>(xs: seq<T>, c: T -> K, ks: seq<K>)
    requires forall x :: x in xs ==> c(x) in ks
    ensures Within(xs, c, ks) == xs
  {
    if |xs| > 0 {
      WithinAll(xs[1..], c, ks);
      assert [xs[0]] + xs[1..] == xs;
    }
  }

  /** A key no row has gets an empty bucket, so its sums are zero. */
  lemma {:induction false} EmptyBucket<T(!new), K>(xs: seq<T>, c: T -> K, k: K, f: T -> real)
    requires forall x :: x in xs ==> c(x) != k
    ensures Bucket(xs, c, k) == [] && SumOf(Bucket(xs, c, k), f) == 0.0
  {
    if |xs| > 0 {
      EmptyBucket(xs[1..], c, k, f);
    }
  }
}

=== FILE: invoice_facts.dfy ===
/**
 * Facts about single invoice operations and their combinations: repeating
 * mark-as-paid, reading back an uploaded proof, the number format, how the
 * due date is computed, and what create does not check.
 */
module InvoiceFacts {
  import opened Wrappers
  import opened Entities
  import opened Decimal
  import opened Ledger
  import Clients
  import opened Invoices

  /** Marking an invoice paid twice is the same as marking it once, with or without new notes. */
  lemma MarkAsPaidIdempotent(s: Store, userId: Id, id: Id, notes: Field<string>)
    requires MarkAsPaid(s, userId, id, notes).Ok?
    ensures var s' := MarkAsPaid(s, userId, id, notes).value;
      && MarkAsPaid(s', userId, id, Absent) == Ok(s')
      && MarkAsPaid(s', userId, id, notes) == Ok(s')
  {
    var s' := MarkAsPaid(s, userId, id, notes).value;
    assert s'.invoices[id := s'.invoices[id]] == s'.invoices;
  }

  /** After an upload, asking for the proof returns the name it was stored under. */
  lemma UploadThenGet(s: Store, userId: Id, id: Id, ext: string)
    requires UploadPaymentProof(s, userId, id, ext).Ok?
    ensures GetPaymentProof(UploadPaymentProof(s, userId, id, ext).value, userId, id) == Ok(ProofFilename(id, ext))
  {
    var s' := UploadPaymentProof(s, userId, id, ext).value;
    assert ProofFilename(id, ext) != "" by {
      assert |ProofFilename(id, ext)| >= |ProofSuffix|;
    }
    assert Truthy(s'.invoices[id].paymentProofFilename);
  }

  /**
   * An upload leaves every other invoice's proof readable as before, unless
   * that invoice names the file the upload replaced or the file it wrote.
   */
  lemma UploadKeepsOtherProofs(s: Store, userId: Id, id: Id, ext: string, caller: Id, other: Id)
    requires UploadPaymentProof(s, userId, id, ext).Ok?
    requires other != id
    requires other in s.invoices ==> s.invoices[other].paymentProofFilename != s.invoices[id].paymentProofFilename
    requires other in s.invoices ==> s.invoices[other].paymentProofFilename != Some(ProofFilename(id, ext))
    ensures GetPaymentProof(UploadPaymentProof(s, userId, id, ext).value, caller, other)
      == GetPaymentProof(s, caller, other)
  {
  }

  /** For one user, distinct sequence numbers give distinct invoice numbers. */
  lemma NumberDeterminesSequence(userId: Id, a: nat, b: nat)
    requires InvoiceNumber(userId, a) == InvoiceNumber(userId, b)
    ensures a == b
  {
    InvoiceNumberFormat(userId, a);
    InvoiceNumberFormat(userId, b);
  }

  /** Removing one of a user's invoices lowers that user's count by one. */
  lemma RemoveLowersCount(invoices: map<Id, Invoice>, userId: Id, id: Id)
    requires OwnsInvoice(invoices, userId, id)
    ensures OwnedCount(invoices - {id}, userId) + 1 == OwnedCount(invoices, userId)
  {
    var before := set i | i in invoices && invoices[i].userId == userId;
    var after := set i | i in invoices - {id} && (invoices - {id})[i].userId == userId;
    assert after == before - {id};
  }

  /**
   * Numbers are not unique: when a user's newest invoice carries the number of
   * the current count, deleting an older one and creating again issues that
   * same number a second time.
   */
  lemma NumberReusedAfterRemove(s: Store, userId: Id, older: Id, newest: Id, newId: Id, now: Instant,
                                input: CreateInvoiceInput)
    requires older != newest && OwnsInvoice(s.invoices, userId, newest)
    requires s.invoices[newest].invoiceNumber == InvoiceNumber(userId, OwnedCount(s.invoices, userId))
    requires Remove(s, userId, older).Ok?
    requires newId !in s.invoices
    requires Create(Remove(s, userId, older).value, userId, newId, now, input).Ok?
    ensures var s2 := Create(Remove(s, userId, older).value, userId, newId, now, input).value;
      && newest in s2.invoices && newId != newest
      && s2.invoices[newId].invoiceNumber == s2.invoices[newest].invoiceNumber
  {
    RemoveLowersCount(s.invoices, userId, older);
  }

  /**
   * The due date is thirty days after the supplied due date, not the supplied
   * date itself; without one it is thirty days after now, whatever the issue date.
   */
  lemma DueDateShifted(s: Store, userId: Id, newId: Id, now: Instant, input: CreateInvoiceInput)
    requires newId !in s.invoices
    requires Create(s, userId, newId, now, input).Ok?
    ensures var inv := Create(s, userId, newId, now, input).value.invoices[newId];
      && (input.dueDate.Some? ==> inv.dueDate == input.dueDate.value + 30 * MillisPerDay != input.dueDate.value)
      && (input.dueDate.None? ==> inv.dueDate == now + 30 * MillisPerDay)
      && (input.dueDate.None? && input.issueDate.Some? && input.issueDate.value != now ==>
            inv.dueDate != inv.issueDate + 30 * MillisPerDay)
  {
  }

  /**
   * Create claims a shift of another client as readily as one of the invoice's
   * own: only ownership and the flag are checked.
   */
  lemma ClaimsOtherClientsShift(s: Store, userId: Id, newId: Id, now: Instant, input: CreateInvoiceInput, x: Id)
    requires newId !in s.invoices
    requires Clients.Owns(s.clients, userId, input.clientId)
    requires AllClaimable(s.shifts, userId, input.shiftIds) && AllClaimable(s.mileages, userId, input.mileageIds)
    requires x in input.shiftIds && x in s.shifts && s.shifts[x].clientId != input.clientId
    ensures Create(s, userId, newId, now, input).Ok?
    ensures var s' := Create(s, userId, newId, now, input).value;
      && x in s'.invoices[newId].shiftIds
      && s'.invoices[newId].clientId != s'.shifts[x].clientId
  {
  }
}

=== FILE: invoices.dfy ===
/** The invoice service: create, update, mark as paid, payment proofs, and delete. */
module Invoices {
  import opened Wrappers
  import opened Entities
  import opened Seqs
  import opened Decimal
  import opened Ledger
  import Clients

  /** Days added to the due date. */
  const DueDays: int := 30
  const NumberPrefix: string := "INV-"
  /** Characters of the user id copied into an invoice number. */
  const OwnerPrefixLength: nat := 4
  /** Minimum width of the zero-padded sequence number. */
  const SequenceWidth: nat := 4
  const ProofSuffix: string := "_payment_proof"

  /** `s.substring(0, n)`. */
  function Prefix(s: string, n: nat): (r: string)
    ensures |r| == (if |s| < n then |s| else n)
    ensures r <= s
  {
    if |s| <= n then s else s[..n]
  }

  /** `INV-${userId.substring(0, 4)}-${sequence.toString().padStart(4, '0')}`. */
  function InvoiceNumber(userId: Id, sequence: nat): string {
    NumberPrefix + Prefix(userId, OwnerPrefixLength) + "-" + PadStart(NatToString(sequence), SequenceWidth, '0')
  }

  /**
   * An invoice number is "INV-", at most four leading characters of the user id,
   * "-", and at least four decimal digits that denote the sequence number.
   */
  lemma InvoiceNumberFormat(userId: Id, sequence: nat)
    ensures var r := InvoiceNumber(userId, sequence);
      var p := Prefix(userId, OwnerPrefixLength);
      var digits := r[5 + |p|..];
      && |r| >= 9 + |p|
      && r[..4] == "INV-"
      && r[4..4 + |p|] == p && p <= userId && |p| == (if |userId| < 4 then |userId| else 4)
      && r[4 + |p|] == '-'
      && |digits| >= 4 && AllDigits(digits) && Value(digits) == sequence
  {
    var p := Prefix(userId, OwnerPrefixLength);
    var d := PadStart(NatToString(sequence), SequenceWidth, '0');
    PaddedValue(sequence, SequenceWidth);
    NumberParts(p, d);
  }

  /** Where the parts of an invoice number sit. */
  lemma NumberParts(p: string, d: string)
    ensures var r := NumberPrefix + p + "-" + d;
      && |r| == 5 + |p| + |d|
      && r[..4] == "INV-" && r[4..4 + |p|] == p && r[4 + |p|] == '-' && r[5 + |p|..] == d
  {
    var r := NumberPrefix + p + "-" + d;
    var head := NumberPrefix + p + "-";
    assert r == head + d;
    assert r[5 + |p|..] == d;
    assert r[..4] == head[..4];
    assert r[4..4 + |p|] == head[4..4 + |p|];
  }

  /** `count({ where: { userId } })`. */
  function OwnedCount(invoices: map<Id, Invoice>, userId: Id): nat {
    |set i | i in invoices && invoices[i].userId == userId|
  }

  /** Invoice `id` exists and belongs to `userId`. */
  predicate OwnsInvoice(invoices: map<Id, Invoice>, userId: Id, id: Id) {
    id in invoices && invoices[id].userId == userId
  }

  datatype CreateInvoiceInput = CreateInvoiceInput(
    clientId: Id,
    shiftIds: seq<Id>,
    mileageIds: seq<Id>,
    issueDate: Option<Instant>,
    dueDate: Option<Instant>,
    notes: Option<string>)

  /**
   * Creates a draft invoice claiming the requested records. The client must be
   * the caller's (else NotFound); then each id list must name distinct, owned,
   * unflagged records (else BadRequest). A failure writes nothing.
   */
  function Create(s: Store, userId: Id, newId: Id, now: Instant, input: CreateInvoiceInput): (r: Result<Store>)
    requires newId !in s.invoices
    ensures !Clients.Owns(s.clients, userId, input.clientId) ==> r == Err(NotFound)
    ensures Clients.Owns(s.clients, userId, input.clientId) && !AllClaimable(s.shifts, userId, input.shiftIds)
            ==> r == Err(BadRequest)
    ensures (Clients.Owns(s.clients, userId, input.clientId) && AllClaimable(s.shifts, userId, input.shiftIds)
             && !AllClaimable(s.mileages, userId, input.mileageIds)) ==> r == Err(BadRequest)
    ensures r.Ok? <==> Clients.Owns(s.clients, userId, input.clientId)
                       && AllClaimable(s.shifts, userId, input.shiftIds)
                       && AllClaimable(s.mileages, userId, input.mileageIds)
    ensures r.Ok? ==>
      var s' := r.value;
      && s'.clients == s.clients && s'.files == s.files
      && s'.invoices.Keys == s.invoices.Keys + {newId}
      && (forall i :: i in s.invoices ==> s'.invoices[i] == s.invoices[i])
      && s'.shifts.Keys == s.shifts.Keys && s'.mileages.Keys == s.mileages.Keys
      && (forall x :: x in s.shifts ==>
            s'.shifts[x] == s.shifts[x].(isInvoiced := s.shifts[x].isInvoiced || x in input.shiftIds))
      && (forall x :: x in s.mileages ==>
            s'.mileages[x] == s.mileages[x].(isInvoiced := s.mileages[x].isInvoiced || x in input.mileageIds))
    ensures r.Ok? ==>
      var inv := r.value.invoices[newId];
      && inv.status == Draft && inv.userId == userId && inv.clientId == input.clientId
      && inv.shiftIds == input.shiftIds && inv.mileageIds == input.mileageIds
      && inv.invoiceNumber == InvoiceNumber(userId, OwnedCount(s.invoices, userId) + 1)
      && inv.issueDate == input.issueDate.GetOr(now)
      && inv.dueDate == input.dueDate.GetOr(now) + DueDays * MillisPerDay
      && inv.notes == input.notes && inv.paymentNotes.None? && inv.paymentProofFilename.None?
      && inv.hoursTotal == Sum(input.shiftIds, s.shifts, Hours)
      && inv.earningsTotal == Sum(input.shiftIds, s.shifts, Earnings)
      && inv.hstTotal == Sum(input.shiftIds, s.shifts, HstAmount)
      && inv.mileageTotal == Sum(input.mileageIds, s.mileages, Amount)
      && inv.grandTotal == inv.earningsTotal + inv.hstTotal + inv.mileageTotal
  {
    ClaimableCountFull(s.shifts, userId, input.shiftIds);
    ClaimableCountFull(s.mileages, userId, input.mileageIds);
    var _ :- Clients.FindOne(s.clients, userId, input.clientId);
    if ClaimableCount(s.shifts, userId, input.shiftIds) != |input.shiftIds| then Err(BadRequest)
    else if ClaimableCount(s.mileages, userId, input.mileageIds) != |input.mileageIds| then Err(BadRequest)
    else
      var number := InvoiceNumber(userId, OwnedCount(s.invoices, userId) + 1);
      var hours := Sum(input.shiftIds, s.shifts, Hours);
      var earnings := Sum(input.shiftIds, s.shifts, Earnings);
      var hst := Sum(input.shiftIds, s.shifts, HstAmount);
      var mileage := Sum(input.mileageIds, s.mileages, Amount);
      var issueDate := input.issueDate.GetOr(now);
      var dueDate := input.dueDate.GetOr(now) + DueDays * MillisPerDay;
      var inv := Invoice(number, issueDate, dueDate, Draft, hours, earnings, mileage, hst,
                         earnings + hst + mileage, input.notes, None, None, userId, input.clientId,
                         input.shiftIds, input.mileageIds);
      Ok(s.(invoices := s.invoices[newId := inv],
            shifts := SetFlags(s.shifts, input.shiftIds, true),
            mileages := SetFlags(s.mileages, input.mileageIds, true)))
  }

  /**
   * An update body. The dates, the status and the id lists are tested for
   * truthiness, so `null` reads as missing there; the two notes are written
   * whenever they are not `undefined`, so `null` clears them.
   */
  datatype InvoicePatch = InvoicePatch(
    issueDate: Option<Instant>,
    dueDate: Option<Instant>,
    status: Option<InvoiceStatus>,
    notes: Field<string>,
    paymentNotes: Field<string>,
    shiftIds: Option<seq<Id>>,
    mileageIds: Option<seq<Id>>)

  /** The ids a supplied list adds to `current` (an omitted list adds none). */
  function Additions(supplied: Option<seq<Id>>, current: seq<Id>): seq<Id> {
    Minus(supplied.GetOr(current), current)
  }

  /** The ids a supplied list drops from `current` (an omitted list drops none). */
  function Removals(supplied: Option<seq<Id>>, current: seq<Id>): seq<Id> {
    Minus(current, supplied.GetOr(current))
  }

  /** The patch's scalar fields applied to `inv`. */
  function WithScalars(inv: Invoice, patch: InvoicePatch): Invoice {
    inv.(issueDate := patch.issueDate.GetOr(inv.issueDate),
         dueDate := patch.dueDate.GetOr(inv.dueDate),
         status := patch.status.GetOr(inv.status),
         notes := Override(patch.notes, inv.notes),
         paymentNotes := Override(patch.paymentNotes, inv.paymentNotes))
  }

  /**
   * One kind's share of a list update: the records `current` holds and `wanted`
   * drops are released, those `wanted` adds are flagged, and the new members are
   * the wanted ids that have a row, each once (`find({ id: In(wanted) })`).
   */
  function Rewire<D>(recs: map<Id, Record<D>>, current: seq<Id>, wanted: seq<Id>): (r: (map<Id, Record<D>>, seq<Id>))
    ensures r.0.Keys == recs.Keys
    ensures forall x :: x in recs ==>
      r.0[x] == recs[x].(isInvoiced :=
        if x in wanted && x !in current then true
        else if x in current && x !in wanted then false
        else recs[x].isInvoiced)
    ensures NoDup(r.1)
    ensures forall x :: x in r.1 <==> x in wanted && x in recs
  {
    var flags := SetFlags(SetFlags(recs, Minus(current, wanted), false), Minus(wanted, current), true);
    (flags, Found(wanted, flags))
  }

  /** Two invoices that differ at most in their member lists and totals. */
  predicate SameHeader(a: Invoice, b: Invoice) {
    && a.invoiceNumber == b.invoiceNumber && a.issueDate == b.issueDate && a.dueDate == b.dueDate
    && a.status == b.status && a.notes == b.notes && a.paymentNotes == b.paymentNotes
    && a.paymentProofFilename == b.paymentProofFilename && a.userId == b.userId && a.clientId == b.clientId
  }

  /**
   * The writes of a list update that passed its checks: both kinds rewired
   * against the stored members of invoice `id`, and `inv` (the stored invoice
   * with its scalar fields already patched) given the new members and totals.
   */
  function Claim(s: Store, id: Id, inv: Invoice, newShifts: seq<Id>, newMileages: seq<Id>): (r: Store)
    requires id in s.invoices
    ensures r.invoices.Keys == s.invoices.Keys
    ensures r.clients == s.clients && r.files == s.files
    ensures forall i :: i in s.invoices && i != id ==> r.invoices[i] == s.invoices[i]
    ensures SameHeader(r.invoices[id], inv)
    ensures var inv' := r.invoices[id];
      && NoDup(inv'.shiftIds) && NoDup(inv'.mileageIds)
      && (forall x :: x in inv'.shiftIds <==> x in newShifts && x in s.shifts)
      && (forall x :: x in inv'.mileageIds <==> x in newMileages && x in s.mileages)
    ensures r.shifts.Keys == s.shifts.Keys && r.mileages.Keys == s.mileages.Keys
    ensures var cur := s.invoices[id];
      forall x :: x in s.shifts ==>
        r.shifts[x] == s.shifts[x].(isInvoiced :=
          if x in newShifts && x !in cur.shiftIds then true
          else if x in cur.shiftIds && x !in newShifts then false
          else s.shifts[x].isInvoiced)
    ensures var cur := s.invoices[id];
      forall x :: x in s.mileages ==>
        r.mileages[x] == s.mileages[x].(isInvoiced :=
          if x in newMileages && x !in cur.mileageIds then true
          else if x in cur.mileageIds && x !in newMileages then false
          else s.mileages[x].isInvoiced)
    ensures TotalsAgree(r.invoices[id], r.shifts, r.mileages)
  {
    var current := s.invoices[id];
    var rs := Rewire(s.shifts, current.shiftIds, newShifts);
    var rm := Rewire(s.mileages, current.mileageIds, newMileages);
    var shifts, memberShifts := rs.0, rs.1;
    var mileages, memberMileages := rm.0, rm.1;
    var earnings := Sum(memberShifts, shifts, Earnings);
    var hst := Sum(memberShifts, shifts, HstAmount);
    var mileage := Sum(memberMileages, mileages, Amount);
    var inv := inv.(shiftIds := memberShifts, mileageIds := memberMileages,
                    hoursTotal := Sum(memberShifts, shifts, Hours), earningsTotal := earnings,
                    hstTotal := hst, mileageTotal := mileage, grandTotal := earnings + hst + mileage);
    Store(s.clients, shifts, mileages, s.invoices[id := inv], s.files)
  }

  /**
   * The member-list half of an update: the records added to invoice `id` must be
   * distinct, owned and unflagged, else BadRequest before any write; then `Claim`.
   */
  function Relist(s: Store, userId: Id, id: Id, inv: Invoice, newShifts: seq<Id>, newMileages: seq<Id>)
    : (r: Result<Store>)
    requires id in s.invoices
    ensures r.Ok? <==>
      && AllClaimable(s.shifts, userId, Minus(newShifts, s.invoices[id].shiftIds))
      && AllClaimable(s.mileages, userId, Minus(newMileages, s.invoices[id].mileageIds))
    ensures r.Err? ==> r.error == BadRequest
    ensures r.Ok? ==> r.value == Claim(s, id, inv, newShifts, newMileages)
  {
    var current := s.invoices[id];
    var addShifts := Minus(newShifts, current.shiftIds);
    var addMileages := Minus(newMileages, current.mileageIds);
    ClaimableCountFull(s.shifts, userId, addShifts);
    ClaimableCountFull(s.mileages, userId, addMileages);
    if |addShifts| > 0 && ClaimableCount(s.shifts, userId, addShifts) != |addShifts| then Err(BadRequest)
    else if |addMileages| > 0 && ClaimableCount(s.mileages, userId, addMileages) != |addMileages| then Err(BadRequest)
    else Ok(Claim(s, id, inv, newShifts, newMileages))
  }

  /**
   * Updates an unpaid invoice of the caller. A paid invoice is BadRequest whatever
   * the patch. Supplied id lists are diffed against the current members: dropped
   * records are released, added ones must be distinct, owned and unflagged (else
   * BadRequest before any write), and all totals are recomputed.
   */
  function Update(s: Store, userId: Id, id: Id, patch: InvoicePatch): (r: Result<Store>)
    ensures !OwnsInvoice(s.invoices, userId, id) ==> r == Err(NotFound)
    ensures OwnsInvoice(s.invoices, userId, id) && s.invoices[id].status == Paid ==> r == Err(BadRequest)
    ensures r.Ok? <==>
      && OwnsInvoice(s.invoices, userId, id) && s.invoices[id].status != Paid
      && AllClaimable(s.shifts, userId, Additions(patch.shiftIds, s.invoices[id].shiftIds))
      && AllClaimable(s.mileages, userId, Additions(patch.mileageIds, s.invoices[id].mileageIds))
    ensures r.Ok? ==> OwnsInvoice(s.invoices, userId, id) && r.value.invoices.Keys == s.invoices.Keys
    ensures r.Ok? ==>
      var s', inv, inv' := r.value, s.invoices[id], r.value.invoices[id];
      && s'.clients == s.clients && s'.files == s.files
      && (forall i :: i in s.invoices && i != id ==> s'.invoices[i] == s.invoices[i])
      && inv'.issueDate == patch.issueDate.GetOr(inv.issueDate)
      && inv'.dueDate == patch.dueDate.GetOr(inv.dueDate)
      && inv'.status == patch.status.GetOr(inv.status)
      && inv'.notes == Override(patch.notes, inv.notes)
      && inv'.paymentNotes == Override(patch.paymentNotes, inv.paymentNotes)
      && inv'.invoiceNumber == inv.invoiceNumber && inv'.userId == inv.userId && inv'.clientId == inv.clientId
      && inv'.paymentProofFilename == inv.paymentProofFilename
    ensures r.Ok? && patch.shiftIds.None? && patch.mileageIds.None? ==>
      var s', inv, inv' := r.value, s.invoices[id], r.value.invoices[id];
      && s'.shifts == s.shifts && s'.mileages == s.mileages
      && inv' == WithScalars(inv, patch)
    ensures r.Ok? && (patch.shiftIds.Some? || patch.mileageIds.Some?) ==>
      var s', inv, inv' := r.value, s.invoices[id], r.value.invoices[id];
      var newShifts, newMileages := patch.shiftIds.GetOr(inv.shiftIds), patch.mileageIds.GetOr(inv.mileageIds);
      && NoDup(inv'.shiftIds) && NoDup(inv'.mileageIds)
      && (forall x :: x in inv'.shiftIds <==> x in newShifts && x in s.shifts)
      && (forall x :: x in inv'.mileageIds <==> x in newMileages && x in s.mileages)
      && s'.shifts.Keys == s.shifts.Keys && s'.mileages.Keys == s.mileages.Keys
      && (forall x :: x in s.shifts ==>
            s'.shifts[x] == s.shifts[x].(isInvoiced :=
              if x in newShifts && x !in inv.shiftIds then true
              else if x in inv.shiftIds && x !in newShifts then false
              else s.shifts[x].isInvoiced))
      && (forall x :: x in s.mileages ==>
            s'.mileages[x] == s.mileages[x].(isInvoiced :=
              if x in newMileages && x !in inv.mileageIds then true
              else if x in inv.mileageIds && x !in newMileages then false
              else s.mileages[x].isInvoiced))
      && TotalsAgree(inv', s'.shifts, s'.mileages)
  {
    if !OwnsInvoice(s.invoices, userId, id) then Err(NotFound)
    else if s.invoices[id].status == Paid then Err(BadRequest)
    else
      var current := s.invoices[id];
      var inv := WithScalars(current, patch);
      if patch.shiftIds.None? && patch.mileageIds.None? then
        MinusCovered(current.shiftIds, current.shiftIds);
        MinusCovered(current.mileageIds, current.mileageIds);
        Ok(s.(invoices := s.invoices[id := inv]))
      else
        Relist(s, userId, id, inv, patch.shiftIds.GetOr(current.shiftIds), patch.mileageIds.GetOr(current.mileageIds))
  }

  /** Sets the caller's invoice to Paid from any status; supplied notes replace the stored ones and `null` clears them. */
  function MarkAsPaid(s: Store, userId: Id, id: Id, paymentNotes: Field<string>): (r: Result<Store>)
    ensures r.Err? <==> !OwnsInvoice(s.invoices, userId, id)
    ensures r.Err? ==> r.error == NotFound
    ensures r.Ok? ==> r.value.invoices.Keys == s.invoices.Keys
    ensures r.Ok? ==>
      var s', inv, inv' := r.value, s.invoices[id], r.value.invoices[id];
      && s'.clients == s.clients && s'.shifts == s.shifts && s'.mileages == s.mileages && s'.files == s.files
      && (forall i :: i in s.invoices && i != id ==> s'.invoices[i] == s.invoices[i])
      && inv'.status == Paid
      && inv'.paymentNotes == Override(paymentNotes, inv.paymentNotes)
      && inv'.(status := inv.status, paymentNotes := inv.paymentNotes) == inv
  {
    if !OwnsInvoice(s.invoices, userId, id) then Err(NotFound)
    else
      var inv := s.invoices[id];
      Ok(s.(invoices := s.invoices[id := inv.(status := Paid, paymentNotes := Override(paymentNotes, inv.paymentNotes))]))
  }

  /** The stored name of an invoice's payment proof: `${id}_payment_proof${ext}`. */
  function ProofFilename(id: Id, ext: string): string {
    id + ProofSuffix + ext
  }

  /**
   * Stores a payment proof with extension `ext` for the caller's invoice, deleting
   * the previous proof file, and forces the status to Paid.
   */
  function UploadPaymentProof(s: Store, userId: Id, id: Id, ext: string): (r: Result<Store>)
    ensures r.Err? <==> !OwnsInvoice(s.invoices, userId, id)
    ensures r.Err? ==> r.error == NotFound
    ensures r.Ok? ==> r.value.invoices.Keys == s.invoices.Keys
    ensures r.Ok? ==>
      var s', inv, inv' := r.value, s.invoices[id], r.value.invoices[id];
      && s'.clients == s.clients && s'.shifts == s.shifts && s'.mileages == s.mileages
      && (forall i :: i in s.invoices && i != id ==> s'.invoices[i] == s.invoices[i])
      && inv'.status == Paid
      && inv'.paymentProofFilename == Some(ProofFilename(id, ext))
      && inv'.(status := inv.status, paymentProofFilename := inv.paymentProofFilename) == inv
      && s'.files == (if Truthy(inv.paymentProofFilename) then s.files - {(userId, inv.paymentProofFilename.value)}
                      else s.files) + {(userId, ProofFilename(id, ext))}
  {
    if !OwnsInvoice(s.invoices, userId, id) then Err(NotFound)
    else
      var inv := s.invoices[id];
      var name := ProofFilename(id, ext);
      var files := if Truthy(inv.paymentProofFilename) then s.files - {(userId, inv.paymentProofFilename.value)} else s.files;
      Ok(s.(files := files + {(userId, name)},
            invoices := s.invoices[id := inv.(status := Paid, paymentProofFilename := Some(name))]))
  }

  /** The proof's file name, if the caller's invoice names one and the file exists. */
  function GetPaymentProof(s: Store, userId: Id, id: Id): (r: Result<string>)
    ensures r.Ok? <==> OwnsInvoice(s.invoices, userId, id) && Truthy(s.invoices[id].paymentProofFilename)
                       && (userId, s.invoices[id].paymentProofFilename.value) in s.files
    ensures r.Err? ==> r.error == NotFound
    ensures r.Ok? ==> Some(r.value) == s.invoices[id].paymentProofFilename
  {
    if !OwnsInvoice(s.invoices, userId, id) then Err(NotFound)
    else
      var name := s.invoices[id].paymentProofFilename;
      if !Truthy(name) then Err(NotFound)
      else if (userId, name.value) !in s.files then Err(NotFound)
      else Ok(name.value)
  }

  /**
   * Deletes the caller's invoice unless it was sent or paid, releasing all its
   * records and deleting its proof file.
   */
  function Remove(s: Store, userId: Id, id: Id): (r: Result<Store>)
    ensures !OwnsInvoice(s.invoices, userId, id) ==> r == Err(NotFound)
    ensures OwnsInvoice(s.invoices, userId, id) && s.invoices[id].status in {Sent, Paid} ==> r == Err(BadRequest)
    ensures r.Ok? <==> OwnsInvoice(s.invoices, userId, id) && (s.invoices[id].status.Draft? || s.invoices[id].status.Overdue? || s.invoices[id].status.Cancelled?)
    ensures r.Ok? ==>
      var s', inv := r.value, s.invoices[id];
      && s'.clients == s.clients
      && s'.invoices == s.invoices - {id}
      && s'.shifts.Keys == s.shifts.Keys && s'.mileages.Keys == s.mileages.Keys
      && (forall x :: x in s.shifts ==>
            s'.shifts[x] == s.shifts[x].(isInvoiced := s.shifts[x].isInvoiced && x !in inv.shiftIds))
      && (forall x :: x in s.mileages ==>
            s'.mileages[x] == s.mileages[x].(isInvoiced := s.mileages[x].isInvoiced && x !in inv.mileageIds))
      && (Truthy(inv.paymentProofFilename) ==> s'.files == s.files - {(userId, inv.paymentProofFilename.value)})
      && (!Truthy(inv.paymentProofFilename) ==> s'.files == s.files)
  {
    if !OwnsInvoice(s.invoices, userId, id) then Err(NotFound)
    else
      var inv := s.invoices[id];
      if inv.status == Sent || inv.status == Paid then Err(BadRequest)
      else
        var files := if Truthy(inv.paymentProofFilename) then s.files - {(userId, inv.paymentProofFilename.value)} else s.files;
        Ok(Store(s.clients, SetFlags(s.shifts, inv.shiftIds, false), SetFlags(s.mileages, inv.mileageIds, false),
                 s.invoices - {id}, files))
  }
}

=== FILE: ledger.dfy ===
/**
 * The invoiced-state ledger shared by the invoice, shift and mileage services:
 * which records an invoice may claim, how claim flags are written, how an
 * invoice's totals are summed, and the two invariants the services keep.
 */
module Ledger {
  import opened Wrappers
  import opened Entities
  import opened Seqs

  /** `x` is a record the caller owns that no invoice has claimed. */
  predicate Claimable<D>(recs: map<Id, Record<D>>, userId: Id, x: Id) {
    x in recs && recs[x].userId == userId && !recs[x].isInvoiced
  }

  /** Rows returned by `find({ id: In(ids), userId, isInvoiced: false })`. */
  function ClaimableCount<D>(recs: map<Id, Record<D>>, userId: Id, ids: seq<Id>): nat {
    |set x | x in ids && Claimable(recs, userId, x)|
  }

  /** The services' eligibility test, stated without counting. */
  predicate AllClaimable<D>(recs: map<Id, Record<D>>, userId: Id, ids: seq<Id>) {
    NoDup(ids) && forall x :: x in ids ==> Claimable(recs, userId, x)
  }

  /**
   * The delete shared by the shift and mileage services: the caller's unclaimed
   * record goes and nothing else changes; a missing, foreign or claimed one is
   * NotFound.
   */
  function RemoveRecord<D>(recs: map<Id, Record<D>>, userId: Id, id: Id): (r: Result<map<Id, Record<D>>>)
    ensures r.Err? <==> !Claimable(recs, userId, id)
    ensures r.Err? ==> r.error == NotFound
    ensures r.Ok? ==> r.value.Keys == recs.Keys - {id}
    ensures r.Ok? ==> forall other :: other in r.value ==> r.value[other] == recs[other]
  {
    if id !in recs || recs[id].userId != userId then Err(NotFound)
    else if recs[id].isInvoiced then Err(NotFound)
    else Ok(recs - {id})
  }

  /**
   * The row count equals the number of requested ids exactly when the ids are
   * distinct and each names an owned, unflagged record: a repeated id fails the check.
   */
  lemma ClaimableCountFull<D>(recs: map<Id, Record<D>>, userId: Id, ids: seq<Id>)
    ensures ClaimableCount(recs, userId, ids) == |ids| <==> AllClaimable(recs, userId, ids)
  {
    var f := set x | x in ids && Claimable(recs, userId, x);
    var e := Elems(ids);
    ElemsCard(ids);
    SubsetCard(f, e);
    if |f| == |ids| {
      forall x | x in ids
        ensures Claimable(recs, userId, x)
      {
        if !Claimable(recs, userId, x) {
          SubsetCard(f, e - {x});
        }
      }
    }
    if AllClaimable(recs, userId, ids) {
      assert f == e;
    }
  }

  /** `update({ id: In(ids) }, { isInvoiced: flag })`. */
  function SetFlags<D>(recs: map<Id, Record<D>>, ids: seq<Id>, flag: bool): (r: map<Id, Record<D>>)
    ensures r.Keys == recs.Keys
    ensures forall x :: x in recs && x in ids ==> r[x] == recs[x].(isInvoiced := flag)
    ensures forall x :: x in recs && x !in ids ==> r[x] == recs[x]
  {
    map x | x in recs :: if x in ids then recs[x].(isInvoiced := flag) else recs[x]
  }

  /** The ids of `ids` that have a row, each once: `find({ id: In(ids) })`. */
  function Found<D>(ids: seq<Id>, recs: map<Id, Record<D>>): (r: seq<Id>)
    ensures NoDup(r)
    ensures forall x :: x in r <==> x in ids && x in recs
  {
    Present(Distinct(ids), recs)
  }

  function Present<D>(ids: seq<Id>, recs: map<Id, Record<D>>): (r: seq<Id>)
    ensures forall x :: x in r <==> x in ids && x in recs
    ensures NoDup(ids) ==> NoDup(r)
    ensures (forall x :: x in ids ==> x in recs) ==> r == ids
  {
    if |ids| == 0 then []
    else
      var rest := Present(ids[1..], recs);
      if ids[0] in recs then [ids[0]] + rest else rest
  }

  /** Sum of `f` over the data of the records `ids` name; ids without a row add nothing. */
  function Sum<D>(ids: seq<Id>, recs: map<Id, Record<D>>, f: D -> real): real {
    if |ids| == 0 then 0.0
    else (if ids[0] in recs then f(recs[ids[0]].data) else 0.0) + Sum(ids[1..], recs, f)
  }

  function Hours(d: ShiftData): real { d.totalHours }
  function Earnings(d: ShiftData): real { d.earnings }
  function HstAmount(d: ShiftData): real { d.hstAmount }
  function Amount(d: MileageData): real { d.amount }

  /** Records that agree on presence and data over `ids`. */
  ghost predicate SameData<D>(ids: seq<Id>, a: map<Id, Record<D>>, b: map<Id, Record<D>>) {
    forall x :: x in ids ==> (x in a <==> x in b) && (x in a ==> a[x].data == b[x].data)
  }

  /** Sums read only the data of the named records: flags, owners and other records do not matter. */
  lemma {:induction false} SumSameData<D>(ids: seq<Id>, a: map<Id, Record<D>>, b: map<Id, Record<D>>, f: D -> real)
    requires SameData(ids, a, b)
    ensures Sum(ids, a, f) == Sum(ids, b, f)
  {
    if |ids| > 0 {
      assert SameData(ids[1..], a, b);
      SumSameData(ids[1..], a, b, f);
    }
  }

  /** Rewriting claim flags leaves every sum unchanged. */
  lemma SumSetFlags<D>(ids: seq<Id>, recs: map<Id, Record<D>>, flagged: seq<Id>, flag: bool, f: D -> real)
    ensures Sum(ids, SetFlags(recs, flagged, flag), f) == Sum(ids, recs, f)
  {
    SumSameData(ids, SetFlags(recs, flagged, flag), recs, f);
  }

  /** Changing, adding or deleting a record outside `ids` leaves the sum over `ids` unchanged. */
  lemma SumOutside<D>(ids: seq<Id>, a: map<Id, Record<D>>, b: map<Id, Record<D>>, f: D -> real)
    requires forall x :: x in ids ==> (x in a <==> x in b) && (x in a ==> a[x] == b[x])
    ensures Sum(ids, a, f) == Sum(ids, b, f)
  {
    SumSameData(ids, a, b, f);
  }

  /** Some invoice holds record `x` of kind `k`. */
  ghost predicate Held(invoices: map<Id, Invoice>, k: Kind, x: Id) {
    exists i :: i in invoices && x in Members(invoices[i], k)
  }

  /** The invoices holding record `x` of kind `k`. */
  function Holders(invoices: map<Id, Invoice>, k: Kind, x: Id): set<Id> {
    set i | i in invoices && x in Members(invoices[i], k)
  }

  /**
   * Invariant 1 for records of kind `k`: every invoice lists existing records
   * without repetition, no record is listed by two invoices, and a record's
   * `isInvoiced` flag is set exactly when some invoice lists it.
   */
  ghost predicate ClaimLedger<D>(recs: map<Id, Record<D>>, invoices: map<Id, Invoice>, k: Kind) {
    && (forall i :: i in invoices ==> NoDup(Members(invoices[i], k)))
    && (forall i, x :: i in invoices && x in Members(invoices[i], k) ==> x in recs)
    && (forall i, j, x :: i in invoices && j in invoices && x in Members(invoices[i], k) && x in Members(invoices[j], k)
          ==> i == j)
    && (forall x :: x in recs ==> (recs[x].isInvoiced <==> Held(invoices, k, x)))
  }

  /** Under the ledger invariant a record is flagged iff exactly one invoice holds it. */
  lemma FlaggedIffOneHolder<D>(recs: map<Id, Record<D>>, invoices: map<Id, Invoice>, k: Kind, x: Id)
    requires ClaimLedger(recs, invoices, k)
    requires x in recs
    ensures recs[x].isInvoiced <==> |Holders(invoices, k, x)| == 1
  {
    var h := Holders(invoices, k, x);
    if recs[x].isInvoiced {
      var i :| i in invoices && x in Members(invoices[i], k);
      assert h == {i};
    } else {
      assert h == {};
    }
  }

  /** Invariant 2 for one invoice: its totals are the sums over its current members. */
  ghost predicate TotalsAgree(inv: Invoice, shifts: map<Id, Shift>, mileages: map<Id, Mileage>) {
    && inv.hoursTotal == Sum(inv.shiftIds, shifts, Hours)
    && inv.earningsTotal == Sum(inv.shiftIds, shifts, Earnings)
    && inv.hstTotal == Sum(inv.shiftIds, shifts, HstAmount)
    && inv.mileageTotal == Sum(inv.mileageIds, mileages, Amount)
    && inv.grandTotal == inv.earningsTotal + inv.hstTotal + inv.mileageTotal
  }

  /** Both invariants over the whole store. */
  ghost predicate Valid(s: Store) {
    && ClaimLedger(s.shifts, s.invoices, ShiftKind)
    && ClaimLedger(s.mileages, s.invoices, MileageKind)
    && (forall i :: i in s.invoices ==> TotalsAgree(s.invoices[i], s.shifts, s.mileages))
  }
}

=== FILE: ledger_proofs.dfy ===
/**
 * The two ledger invariants are kept by every service operation that writes
 * records or invoices: creating, updating, paying and deleting invoices, and
 * creating, updating and deleting shifts and mileage entries.
 */
module LedgerProofs {
  import opened Wrappers
  import opened Entities
  import opened Seqs
  import opened Ledger
  import Shifts
  import Mileages
  import Invoices

  /** The members of invoice `id` of kind `k`, or none when there is no such invoice. */
  function MembersOf(invoices: map<Id, Invoice>, id: Id, k: Kind): seq<Id> {
    if id in invoices then Members(invoices[id], k) else []
  }

  /** Under the ledger invariant an unflagged record is listed by no invoice. */
  lemma UnflaggedUnheld<D>(recs: map<Id, Record<D>>, invoices: map<Id, Invoice>, k: Kind, x: Id)
    requires ClaimLedger(recs, invoices, k)
    requires x in recs ==> !recs[x].isInvoiced
    ensures forall i :: i in invoices ==> x !in Members(invoices[i], k)
  {
    forall i | i in invoices
      ensures x !in Members(invoices[i], k)
    {
      if x in Members(invoices[i], k) {
        assert x in recs;
        assert Held(invoices, k, x);
      }
    }
  }

  /**
   * The general step behind every invoice write: invoice `id` trades its members
   * `O` for `N` (either may be empty, for a created or a deleted invoice), the
   * others keep theirs, and the flags follow — members of `N` are flagged, members
   * dropped from `O` are released, every other flag stays. If `N` has no
   * repetitions, names existing records, and adds only unflagged ones, the ledger
   * invariant still holds.
   */
  lemma {:induction false} Reassign<D>(recs: map<Id, Record<D>>, recs': map<Id, Record<D>>,
                                       invoices: map<Id, Invoice>, invoices': map<Id, Invoice>, k: Kind, id: Id)
    requires ClaimLedger(recs, invoices, k)
    requires forall i :: i != id ==> (i in invoices' <==> i in invoices)
    requires forall i :: i in invoices' && i != id ==> i in invoices && Members(invoices'[i], k) == Members(invoices[i], k)
    requires forall x :: x in recs' <==> x in recs
    requires NoDup(MembersOf(invoices', id, k))
    requires forall x :: x in MembersOf(invoices', id, k) ==> x in recs
    requires forall x :: x in MembersOf(invoices', id, k) && x !in MembersOf(invoices, id, k) ==> !recs[x].isInvoiced
    requires forall x :: x in recs && x in recs' ==>
      (recs'[x].isInvoiced <==> x in MembersOf(invoices', id, k)
                                || (x !in MembersOf(invoices, id, k) && recs[x].isInvoiced))
    ensures ClaimLedger(recs', invoices', k)
  {
    var O, N := MembersOf(invoices, id, k), MembersOf(invoices', id, k);
    Exclusive(recs, invoices, k, id, N);
    forall i | i in invoices'
      ensures NoDup(Members(invoices'[i], k)) && forall x :: x in Members(invoices'[i], k) ==> x in recs'
    {
      if i != id {
        assert i in invoices;
      }
    }
    forall i, j, x | i in invoices' && j in invoices' && x in Members(invoices'[i], k) && x in Members(invoices'[j], k)
      ensures i == j
    {
      if i != id && j != id {
        assert i in invoices && j in invoices;
      }
    }
    forall x | x in recs'
      ensures recs'[x].isInvoiced <==> Held(invoices', k, x)
    {
      if x in N {
        assert id in invoices' && x in Members(invoices'[id], k);
      } else {
        forall j | j in invoices' && j != id
          ensures x in Members(invoices'[j], k) <==> x in Members(invoices[j], k)
        {
          assert j in invoices;
        }
        if x in O {
          assert id in invoices && x in Members(invoices[id], k);
        } else if Held(invoices, k, x) {
          var j :| j in invoices && x in Members(invoices[j], k);
          assert j in invoices' && x in Members(invoices'[j], k);
        }
      }
    }
  }

  /**
   * Under the ledger invariant, members that invoice `id` keeps and records that
   * were unflagged are held by no other invoice.
   */
  lemma Exclusive<D>(recs: map<Id, Record<D>>, invoices: map<Id, Invoice>, k: Kind, id: Id, N: seq<Id>)
    requires ClaimLedger(recs, invoices, k)
    requires forall x :: x in N && x !in MembersOf(invoices, id, k) ==> x in recs && !recs[x].isInvoiced
    ensures forall x, j :: x in N && j in invoices && j != id ==> x !in Members(invoices[j], k)
  {
    forall x, j | x in N && j in invoices && j != id
      ensures x !in Members(invoices[j], k)
    {
      if x in MembersOf(invoices, id, k) {
        assert id in invoices;
      } else {
        UnflaggedUnheld(recs, invoices, k, x);
      }
    }
  }

  /** A write that keeps every invoice's members and every record keeps the ledger invariant. */
  lemma MembersKept<D>(recs: map<Id, Record<D>>, invoices: map<Id, Invoice>, invoices': map<Id, Invoice>, k: Kind)
    requires ClaimLedger(recs, invoices, k)
    requires forall i :: i in invoices' <==> i in invoices
    requires forall i :: i in invoices && i in invoices' ==> Members(invoices'[i], k) == Members(invoices[i], k)
    ensures ClaimLedger(recs, invoices', k)
  {
    forall x | x in recs
      ensures recs[x].isInvoiced <==> Held(invoices', k, x)
    {
      if Held(invoices', k, x) {
        var j :| j in invoices' && x in Members(invoices'[j], k);
        assert x in Members(invoices[j], k);
      }
      if Held(invoices, k, x) {
        var j :| j in invoices && x in Members(invoices[j], k);
        assert x in Members(invoices'[j], k);
      }
    }
  }

  /**
   * Editing, creating or deleting the single record `id`, unflagged before and
   * after, keeps the ledger invariant, and no invoice's members see the change.
   */
  lemma EditUnflagged<D>(recs: map<Id, Record<D>>, recs': map<Id, Record<D>>, invoices: map<Id, Invoice>,
                         k: Kind, id: Id)
    requires ClaimLedger(recs, invoices, k)
    requires id in recs ==> !recs[id].isInvoiced
    requires id in recs' ==> !recs'[id].isInvoiced
    requires forall x :: x != id ==> (x in recs' <==> x in recs)
    requires forall x :: x in recs' && x in recs && x != id ==> recs'[x] == recs[x]
    ensures ClaimLedger(recs', invoices, k)
    ensures forall i :: i in invoices ==> SameData(Members(invoices[i], k), recs, recs')
  {
    UnflaggedUnheld(recs, invoices, k, id);
  }

  /** Totals survive a write that leaves every other invoice and the data of its members alone. */
  lemma TotalsOthers(s: Store, s': Store, changed: set<Id>)
    requires forall i :: i in s.invoices ==> TotalsAgree(s.invoices[i], s.shifts, s.mileages)
    requires forall i :: i in s'.invoices && i !in changed ==> i in s.invoices && s'.invoices[i] == s.invoices[i]
    requires forall i :: i in s'.invoices && i !in changed && i in s.invoices ==>
      SameData(s.invoices[i].shiftIds, s.shifts, s'.shifts) && SameData(s.invoices[i].mileageIds, s.mileages, s'.mileages)
    requires forall i :: i in s'.invoices && i in changed ==> TotalsAgree(s'.invoices[i], s'.shifts, s'.mileages)
    ensures forall i :: i in s'.invoices ==> TotalsAgree(s'.invoices[i], s'.shifts, s'.mileages)
  {
    forall i | i in s'.invoices && i !in changed
      ensures TotalsAgree(s'.invoices[i], s'.shifts, s'.mileages)
    {
      var inv := s.invoices[i];
      SumSameData(inv.shiftIds, s.shifts, s'.shifts, Hours);
      SumSameData(inv.shiftIds, s.shifts, s'.shifts, Earnings);
      SumSameData(inv.shiftIds, s.shifts, s'.shifts, HstAmount);
      SumSameData(inv.mileageIds, s.mileages, s'.mileages, Amount);
    }
  }

  /** Records whose flags alone differ agree on the data every list of ids reads. */
  lemma FlagsOnly<D>(a: map<Id, Record<D>>, b: map<Id, Record<D>>)
    requires forall x :: x in a <==> x in b
    requires forall x :: x in a && x in b ==> a[x].data == b[x].data
    ensures forall ids :: SameData(ids, a, b)
  {
  }

  /** Totals survive a write to one invoice that changes no record's data. */
  lemma OneInvoiceWritten(s: Store, s': Store, id: Id)
    requires forall i :: i in s.invoices ==> TotalsAgree(s.invoices[i], s.shifts, s.mileages)
    requires forall i :: i in s'.invoices && i != id ==> i in s.invoices && s'.invoices[i] == s.invoices[i]
    requires id in s'.invoices ==> TotalsAgree(s'.invoices[id], s'.shifts, s'.mileages)
    requires s'.shifts.Keys == s.shifts.Keys && forall x :: x in s.shifts ==> s'.shifts[x].data == s.shifts[x].data
    requires s'.mileages.Keys == s.mileages.Keys && forall x :: x in s.mileages ==> s'.mileages[x].data == s.mileages[x].data
    ensures forall i :: i in s'.invoices ==> TotalsAgree(s'.invoices[i], s'.shifts, s'.mileages)
  {
    FlagsOnly(s.shifts, s'.shifts);
    FlagsOnly(s.mileages, s'.mileages);
    TotalsOthers(s, s', {id});
  }

  /** Creating an invoice keeps both invariants. */
  lemma CreateKeepsValid(s: Store, userId: Id, newId: Id, now: Instant, input: Invoices.CreateInvoiceInput)
    requires Valid(s) && newId !in s.invoices
    requires Invoices.Create(s, userId, newId, now, input).Ok?
    ensures Valid(Invoices.Create(s, userId, newId, now, input).value)
  {
    CreateKeepsLedger(s, userId, newId, now, input);
    CreateKeepsTotals(s, userId, newId, now, input);
  }

  lemma CreateKeepsLedger(s: Store, userId: Id, newId: Id, now: Instant, input: Invoices.CreateInvoiceInput)
    requires Valid(s) && newId !in s.invoices
    requires Invoices.Create(s, userId, newId, now, input).Ok?
    ensures ClaimLedger(Invoices.Create(s, userId, newId, now, input).value.shifts,
                        Invoices.Create(s, userId, newId, now, input).value.invoices, ShiftKind)
    ensures ClaimLedger(Invoices.Create(s, userId, newId, now, input).value.mileages,
                        Invoices.Create(s, userId, newId, now, input).value.invoices, MileageKind)
  {
    var s' := Invoices.Create(s, userId, newId, now, input).value;
    assert MembersOf(s'.invoices, newId, ShiftKind) == input.shiftIds;
    assert MembersOf(s'.invoices, newId, MileageKind) == input.mileageIds;
    Reassign(s.shifts, s'.shifts, s.invoices, s'.invoices, ShiftKind, newId);
    Reassign(s.mileages, s'.mileages, s.invoices, s'.invoices, MileageKind, newId);
  }

  lemma CreateKeepsTotals(s: Store, userId: Id, newId: Id, now: Instant, input: Invoices.CreateInvoiceInput)
    requires Valid(s) && newId !in s.invoices
    requires Invoices.Create(s, userId, newId, now, input).Ok?
    ensures var s' := Invoices.Create(s, userId, newId, now, input).value;
      forall i :: i in s'.invoices ==> TotalsAgree(s'.invoices[i], s'.shifts, s'.mileages)
  {
    var s' := Invoices.Create(s, userId, newId, now, input).value;
    FlagsOnly(s.shifts, s'.shifts);
    FlagsOnly(s.mileages, s'.mileages);
    var inv := s'.invoices[newId];
    SumSameData(inv.shiftIds, s.shifts, s'.shifts, Hours);
    SumSameData(inv.shiftIds, s.shifts, s'.shifts, Earnings);
    SumSameData(inv.shiftIds, s.shifts, s'.shifts, HstAmount);
    SumSameData(inv.mileageIds, s.mileages, s'.mileages, Amount);
    TotalsOthers(s, s', {newId});
  }

  /** Updating an invoice keeps both invariants, with or without id lists. */
  lemma UpdateKeepsValid(s: Store, userId: Id, id: Id, patch: Invoices.InvoicePatch)
    requires Valid(s)
    requires Invoices.Update(s, userId, id, patch).Ok?
    ensures Valid(Invoices.Update(s, userId, id, patch).value)
  {
    UpdateKeepsLedger(s, userId, id, patch);
    UpdateKeepsTotals(s, userId, id, patch);
  }

  lemma UpdateKeepsLedger(s: Store, userId: Id, id: Id, patch: Invoices.InvoicePatch)
    requires Valid(s)
    requires Invoices.Update(s, userId, id, patch).Ok?
    ensures ClaimLedger(Invoices.Update(s, userId, id, patch).value.shifts,
                        Invoices.Update(s, userId, id, patch).value.invoices, ShiftKind)
    ensures ClaimLedger(Invoices.Update(s, userId, id, patch).value.mileages,
                        Invoices.Update(s, userId, id, patch).value.invoices, MileageKind)
  {
    var s' := Invoices.Update(s, userId, id, patch).value;
    if patch.shiftIds.None? && patch.mileageIds.None? {
      MembersKept(s.shifts, s.invoices, s'.invoices, ShiftKind);
      MembersKept(s.mileages, s.invoices, s'.invoices, MileageKind);
    } else {
      UpdateListsKeepLedger(s, userId, id, patch);
    }
  }

  /** An update that replaces an id list releases what it drops and flags what it adds. */
  lemma UpdateListsKeepLedger(s: Store, userId: Id, id: Id, patch: Invoices.InvoicePatch)
    requires Valid(s)
    requires patch.shiftIds.Some? || patch.mileageIds.Some?
    requires Invoices.Update(s, userId, id, patch).Ok?
    ensures ClaimLedger(Invoices.Update(s, userId, id, patch).value.shifts,
                        Invoices.Update(s, userId, id, patch).value.invoices, ShiftKind)
    ensures ClaimLedger(Invoices.Update(s, userId, id, patch).value.mileages,
                        Invoices.Update(s, userId, id, patch).value.invoices, MileageKind)
  {
    var s' := Invoices.Update(s, userId, id, patch).value;
    var inv := s.invoices[id];
    var addShifts := Invoices.Additions(patch.shiftIds, inv.shiftIds);
    var addMileages := Invoices.Additions(patch.mileageIds, inv.mileageIds);
    assert forall x :: x in addShifts ==> Claimable(s.shifts, userId, x);
    assert forall x :: x in addMileages ==> Claimable(s.mileages, userId, x);
    forall x | x in s.shifts && x in inv.shiftIds
      ensures s.shifts[x].isInvoiced
    {
      assert Held(s.invoices, ShiftKind, x);
    }
    forall x | x in s.mileages && x in inv.mileageIds
      ensures s.mileages[x].isInvoiced
    {
      assert Held(s.invoices, MileageKind, x);
    }
    Reassign(s.shifts, s'.shifts, s.invoices, s'.invoices, ShiftKind, id);
    Reassign(s.mileages, s'.mileages, s.invoices, s'.invoices, MileageKind, id);
  }

  lemma UpdateKeepsTotals(s: Store, userId: Id, id: Id, patch: Invoices.InvoicePatch)
    requires Valid(s)
    requires Invoices.Update(s, userId, id, patch).Ok?
    ensures var s' := Invoices.Update(s, userId, id, patch).value;
      forall i :: i in s'.invoices ==> TotalsAgree(s'.invoices[i], s'.shifts, s'.mileages)
  {
    var s' := Invoices.Update(s, userId, id, patch).value;
    OneInvoiceWritten(s, s', id);
  }

  /** Marking an invoice paid keeps both invariants. */
  lemma MarkAsPaidKeepsValid(s: Store, userId: Id, id: Id, paymentNotes: Field<string>)
    requires Valid(s)
    requires Invoices.MarkAsPaid(s, userId, id, paymentNotes).Ok?
    ensures Valid(Invoices.MarkAsPaid(s, userId, id, paymentNotes).value)
  {
    var s' := Invoices.MarkAsPaid(s, userId, id, paymentNotes).value;
    MembersKept(s.shifts, s.invoices, s'.invoices, ShiftKind);
    MembersKept(s.mileages, s.invoices, s'.invoices, MileageKind);
    OneInvoiceWritten(s, s', id);
  }

  /** Uploading a payment proof keeps both invariants. */
  lemma UploadKeepsValid(s: Store, userId: Id, id: Id, ext: string)
    requires Valid(s)
    requires Invoices.UploadPaymentProof(s, userId, id, ext).Ok?
    ensures Valid(Invoices.UploadPaymentProof(s, userId, id, ext).value)
  {
    var s' := Invoices.UploadPaymentProof(s, userId, id, ext).value;
    MembersKept(s.shifts, s.invoices, s'.invoices, ShiftKind);
    MembersKept(s.mileages, s.invoices, s'.invoices, MileageKind);
    OneInvoiceWritten(s, s', id);
  }

  /** Deleting an invoice keeps both invariants: its records are released and held by nobody. */
  lemma RemoveKeepsValid(s: Store, userId: Id, id: Id)
    requires Valid(s)
    requires Invoices.Remove(s, userId, id).Ok?
    ensures Valid(Invoices.Remove(s, userId, id).value)
  {
    RemoveKeepsLedger(s, userId, id);
    RemoveKeepsTotals(s, userId, id);
  }

  lemma RemoveKeepsLedger(s: Store, userId: Id, id: Id)
    requires Valid(s)
    requires Invoices.Remove(s, userId, id).Ok?
    ensures ClaimLedger(Invoices.Remove(s, userId, id).value.shifts,
                        Invoices.Remove(s, userId, id).value.invoices, ShiftKind)
    ensures ClaimLedger(Invoices.Remove(s, userId, id).value.mileages,
                        Invoices.Remove(s, userId, id).value.invoices, MileageKind)
  {
    var s' := Invoices.Remove(s, userId, id).value;
    Reassign(s.shifts, s'.shifts, s.invoices, s'.invoices, ShiftKind, id);
    Reassign(s.mileages, s'.mileages, s.invoices, s'.invoices, MileageKind, id);
  }

  lemma RemoveKeepsTotals(s: Store, userId: Id, id: Id)
    requires Valid(s)
    requires Invoices.Remove(s, userId, id).Ok?
    ensures var s' := Invoices.Remove(s, userId, id).value;
      forall i :: i in s'.invoices ==> TotalsAgree(s'.invoices[i], s'.shifts, s'.mileages)
  {
    var s' := Invoices.Remove(s, userId, id).value;
    OneInvoiceWritten(s, s', id);
  }

  /** Creating, editing or deleting an unflagged shift keeps both invariants. */
  lemma ShiftEditKeepsValid(s: Store, shifts': map<Id, Shift>, id: Id)
    requires Valid(s)
    requires id in s.shifts ==> !s.shifts[id].isInvoiced
    requires id in shifts' ==> !shifts'[id].isInvoiced
    requires forall x :: x != id ==> (x in shifts' <==> x in s.shifts)
    requires forall x :: x in shifts' && x in s.shifts && x != id ==> shifts'[x] == s.shifts[x]
    ensures Valid(s.(shifts := shifts'))
  {
    EditUnflagged(s.shifts, shifts', s.invoices, ShiftKind, id);
    TotalsOthers(s, s.(shifts := shifts'), {});
  }

  /** Creating, editing or deleting an unflagged mileage entry keeps both invariants. */
  lemma MileageEditKeepsValid(s: Store, mileages': map<Id, Mileage>, id: Id)
    requires Valid(s)
    requires id in s.mileages ==> !s.mileages[id].isInvoiced
    requires id in mileages' ==> !mileages'[id].isInvoiced
    requires forall x :: x != id ==> (x in mileages' <==> x in s.mileages)
    requires forall x :: x in mileages' && x in s.mileages && x != id ==> mileages'[x] == s.mileages[x]
    ensures Valid(s.(mileages := mileages'))
  {
    EditUnflagged(s.mileages, mileages', s.invoices, MileageKind, id);
    TotalsOthers(s, s.(mileages := mileages'), {});
  }

  /** The shift service's create, update and delete keep both invariants. */
  lemma ShiftServiceKeepsValid(s: Store, user: UserProfile, userId: Id, id: Id,
                               input: Shifts.CreateShiftInput, patch: Shifts.ShiftPatch)
    requires Valid(s)
    ensures id !in s.shifts && Shifts.Create(s.clients, s.shifts, user, userId, id, input).Ok? ==>
      Valid(s.(shifts := Shifts.Create(s.clients, s.shifts, user, userId, id, input).value))
    ensures Shifts.Update(s.clients, s.shifts, user, userId, id, patch).Ok? ==>
      Valid(s.(shifts := Shifts.Update(s.clients, s.shifts, user, userId, id, patch).value))
    ensures Shifts.Remove(s.shifts, userId, id).Ok? ==>
      Valid(s.(shifts := Shifts.Remove(s.shifts, userId, id).value))
  {
    if id !in s.shifts && Shifts.Create(s.clients, s.shifts, user, userId, id, input).Ok? {
      ShiftEditKeepsValid(s, Shifts.Create(s.clients, s.shifts, user, userId, id, input).value, id);
    }
    if Shifts.Update(s.clients, s.shifts, user, userId, id, patch).Ok? {
      ShiftEditKeepsValid(s, Shifts.Update(s.clients, s.shifts, user, userId, id, patch).value, id);
    }
    if Shifts.Remove(s.shifts, userId, id).Ok? {
      ShiftEditKeepsValid(s, Shifts.Remove(s.shifts, userId, id).value, id);
    }
  }

  /** The mileage service's create, update and delete keep both invariants. */
  lemma MileageServiceKeepsValid(s: Store, user: UserProfile, userId: Id, id: Id,
                                 input: Mileages.CreateMileageInput, patch: Mileages.MileagePatch)
    requires Valid(s)
    ensures id !in s.mileages && Mileages.Create(s.clients, s.mileages, user, userId, id, input).Ok? ==>
      Valid(s.(mileages := Mileages.Create(s.clients, s.mileages, user, userId, id, input).value))
    ensures Mileages.Update(s.clients, s.mileages, userId, id, patch).Ok? ==>
      Valid(s.(mileages := Mileages.Update(s.clients, s.mileages, userId, id, patch).value))
    ensures Mileages.Remove(s.mileages, userId, id).Ok? ==>
      Valid(s.(mileages := Mileages.Remove(s.mileages, userId, id).value))
  {
    if id !in s.mileages && Mileages.Create(s.clients, s.mileages, user, userId, id, input).Ok? {
      MileageEditKeepsValid(s, Mileages.Create(s.clients, s.mileages, user, userId, id, input).value, id);
    }
    if Mileages.Update(s.clients, s.mileages, userId, id, patch).Ok? {
      MileageEditKeepsValid(s, Mileages.Update(s.clients, s.mileages, userId, id, patch).value, id);
    }
    if Mileages.Remove(s.mileages, userId, id).Ok? {
      MileageEditKeepsValid(s, Mileages.Remove(s.mileages, userId, id).value, id);
    }
  }
}

=== FILE: logger.dfy ===
/**
 * The application logger: a level filter against the configured level, the
 * choice of context, and the line each accepted message becomes. The clock,
 * the console and the log file are outside the model: the timestamp is a
 * parameter and the two outputs are returned as strings.
 */
module Logger {
  import opened Wrappers

  /** The five levels, most severe first. */
  datatype Level = Error | Warn | Info | Debug | Verbose

  const Levels: seq<string> := ["error", "warn", "info", "debug", "verbose"]

  /** The level used when none is configured. */
  const DefaultLevel: string := "info"

  /** The context used when neither the call nor the logger names one. */
  const DefaultContext: string := "Application"

  function Name(l: Level): string {
    match l
    case Error => "error"
    case Warn => "warn"
    case Info => "info"
    case Debug => "debug"
    case Verbose => "verbose"
  }

  /** Severity rank, independent of the list: 0 is the most severe. */
  function Rank(l: Level): nat {
    match l
    case Error => 0
    case Warn => 1
    case Info => 2
    case Debug => 3
    case Verbose => 4
  }

  /** `xs.indexOf(x)`: the first position of `x`, or -1 when it is absent. */
  function IndexOf(xs: seq<string>, x: string): (r: int)
    ensures -1 <= r < |xs|
    ensures r == -1 <==> x !in xs
    ensures r >= 0 ==> xs[r] == x && x !in xs[..r]
  {
    if |xs| == 0 then -1
    else if xs[0] == x then 0
    else
      var j := IndexOf(xs[1..], x);
      assert xs[1..][..if j < 0 then 0 else j] == xs[1..if j < 0 then 1 else j + 1];
      if j == -1 then -1 else j + 1
  }

  /**
   * `shouldLog`: a level passes when it sits no lower in the list than the
   * configured one. An unlisted level has index -1 and so always passes; an
   * unlisted configured level silences every listed one.
   */
  function ShouldLog(level: string, config: string): (r: bool)
    ensures level !in Levels ==> r
    ensures level in Levels && config !in Levels ==> !r
  {
    IndexOf(Levels, level) <= IndexOf(Levels, config)
  }

  /** The logger's state: the `setContext` value and the configured level. */
  datatype LoggerState = LoggerState(context: Option<string>, logLevel: string)

  /** A new logger reads `LOG_LEVEL`, falling back to the default when it is not set. */
  function New(configured: Option<string>): (r: LoggerState)
    ensures r.context == None
    ensures configured.None? ==> r.logLevel == DefaultLevel
    ensures configured.Some? ==> r.logLevel == configured.value
  {
    LoggerState(None, if configured.Some? then configured.value else DefaultLevel)
  }

  function SetContext(lg: LoggerState, context: string): (r: LoggerState)
    ensures r.context == Some(context) && r.logLevel == lg.logLevel
  {
    lg.(context := Some(context))
  }

  /**
   * `context || this.context || 'Application'`: an absent or empty context
   * falls through to the next one.
   */
  function ContextOf(arg: Option<string>, own: Option<string>): (r: string)
    ensures r != ""
    ensures Truthy(arg) ==> r == arg.value
    ensures !Truthy(arg) && Truthy(own) ==> r == own.value
    ensures !Truthy(arg) && !Truthy(own) ==> r == DefaultContext
  {
    if Truthy(arg) then arg.value else if Truthy(own) then own.value else DefaultContext
  }

  /** ASCII upper-casing of one character. */
  function UpperChar(c: char): char {
    if 'a' <= c <= 'z' then (c as int - 'a' as int + 'A' as int) as char else c
  }

  /** `s.toUpperCase()` on ASCII text. */
  function ToUpper(s: string): (r: string)
    ensures |r| == |s|
    ensures forall i :: 0 <= i < |s| ==> r[i] == UpperChar(s[i])
  {
    if |s| == 0 then [] else [UpperChar(s[0])] + ToUpper(s[1..])
  }

  /** `[timestamp] [LEVEL] [context] message`, then a new line and the trace when there is one. */
  function Entry(timestamp: string, level: string, context: string, message: string, trace: Option<string>)
    : string
  {
    "[" + timestamp + "] [" + ToUpper(level) + "] [" + context + "] " + message
      + (if Truthy(trace) then "\n" + trace.value else "")
  }

  /** What one accepted message writes: a coloured console line and a file line. */
  datatype Emission = Emission(console: string, file: string)

  const Escape: char := 27 as char

  /** The reset sequence, also the colour of an unknown level. */
  const Reset: string := [Escape] + "[0m"

  function ColorOf(level: string): string {
    if level == "error" then [Escape] + "[31m"
    else if level == "warn" then [Escape] + "[33m"
    else if level == "info" then [Escape] + "[36m"
    else if level == "debug" then [Escape] + "[35m"
    else if level == "verbose" then [Escape] + "[90m"
    else Reset
  }

  /**
   * `writeLog`: nothing when the level is filtered out; otherwise the entry,
   * wrapped in the level's colour on the console and ended by a new line in the file.
   */
  function WriteLog(lg: LoggerState, level: string, message: string, context: Option<string>,
                    trace: Option<string>, timestamp: string): (r: Option<Emission>)
    ensures r.Some? <==> ShouldLog(level, lg.logLevel)
    ensures r.Some? ==>
      var e := Entry(timestamp, level, ContextOf(context, lg.context), message, trace);
      r.value.file == e + "\n" && r.value.console == ColorOf(level) + e + Reset
  {
    if !ShouldLog(level, lg.logLevel) then None
    else
      var e := Entry(timestamp, level, ContextOf(context, lg.context), message, trace);
      Some(Emission(ColorOf(level) + e + Reset, e + "\n"))
  }

  function Log(lg: LoggerState, message: string, context: Option<string>, timestamp: string): Option<Emission> {
    WriteLog(lg, "info", message, context, None, timestamp)
  }

  function LogError(lg: LoggerState, message: string, trace: Option<string>, context: Option<string>,
                    timestamp: string): Option<Emission> {
    WriteLog(lg, "error", message, context, trace, timestamp)
  }

  function LogWarn(lg: LoggerState, message: string, context: Option<string>, timestamp: string): Option<Emission> {
    WriteLog(lg, "warn", message, context, None, timestamp)
  }

  function LogDebug(lg: LoggerState, message: string, context: Option<string>, timestamp: string): Option<Emission> {
    WriteLog(lg, "debug", message, context, None, timestamp)
  }

  function LogVerbose(lg: LoggerState, message: string, context: Option<string>, timestamp: string): Option<Emission> {
    WriteLog(lg, "verbose", message, context, None, timestamp)
  }

  /** Each level's position in the list is its rank. */
  lemma IndexIsRank(l: Level)
    ensures IndexOf(Levels, Name(l)) == Rank(l)
  {
    assert Levels[Rank(l)] == Name(l);
    var i := IndexOf(Levels, Name(l));
    assert Levels[i] == Name(l);
  }

  /** A message passes exactly when its level is at least as severe as the configured one. */
  lemma FilterByRank(l: Level, m: Level)
    ensures ShouldLog(Name(l), Name(m)) <==> Rank(l) <= Rank(m)
  {
    IndexIsRank(l);
    IndexIsRank(m);
  }

  /** Whatever passes, every more severe level passes too. */
  lemma FilterMonotone(l1: Level, l2: Level, config: string)
    requires Rank(l1) <= Rank(l2) && ShouldLog(Name(l2), config)
    ensures ShouldLog(Name(l1), config)
  {
    IndexIsRank(l1);
    IndexIsRank(l2);
  }

  /** Errors pass under every recognised configured level. */
  lemma ErrorsAlwaysPass(config: string)
    requires config in Levels
    ensures ShouldLog(Name(Error), config)
  {
    IndexIsRank(Error);
  }

  /** An unrecognised configured level silences all five levels. */
  lemma UnknownConfigSilences(l: Level, config: string)
    requires config !in Levels
    ensures !ShouldLog(Name(l), config)
  {
    IndexIsRank(l);
  }

  /** With nothing configured, error, warn and info pass and debug and verbose do not. */
  lemma DefaultPassesUpToInfo(l: Level)
    ensures ShouldLog(Name(l), New(None).logLevel) <==> Rank(l) <= 2
  {
    FilterByRank(l, Info);
  }

  /** A level's tag in a line: its name in capitals. */
  lemma LevelTag(l: Level)
    ensures ToUpper(Name(l)) == match l
      case Error => "ERROR" case Warn => "WARN" case Info => "INFO" case Debug => "DEBUG" case Verbose => "VERBOSE"
  {
    var s := Name(l);
    var r := ToUpper(s);
    assert forall i :: 0 <= i < |s| ==> r[i] == UpperChar(s[i]);
  }

  /** An empty trace adds nothing; a non-empty one follows the message on a line of its own. */
  lemma TraceOnlyWhenPresent(timestamp: string, level: string, context: string, message: string, trace: string)
    ensures Entry(timestamp, level, context, message, Some("")) == Entry(timestamp, level, context, message, None)
    ensures trace != "" ==>
      Entry(timestamp, level, context, message, Some(trace))
        == Entry(timestamp, level, context, message, None) + "\n" + trace
  {
  }

  /**
   * `log`, `error`, `warn`, `debug` and `verbose` write at levels info, error,
   * warn, debug and verbose.
   */
  lemma MethodLevels(lg: LoggerState, message: string, trace: Option<string>, context: Option<string>, ts: string)
    ensures Log(lg, message, context, ts).Some? <==> ShouldLog(Name(Info), lg.logLevel)
    ensures LogError(lg, message, trace, context, ts).Some? <==> ShouldLog(Name(Error), lg.logLevel)
    ensures LogWarn(lg, message, context, ts).Some? <==> ShouldLog(Name(Warn), lg.logLevel)
    ensures LogDebug(lg, message, context, ts).Some? <==> ShouldLog(Name(Debug), lg.logLevel)
    ensures LogVerbose(lg, message, context, ts).Some? <==> ShouldLog(Name(Verbose), lg.logLevel)
  {
  }

  /** `log` writes an entry without a trace; `error` passes its trace on to the entry. */
  lemma MethodLines(lg: LoggerState, message: string, trace: Option<string>, context: Option<string>, ts: string)
    ensures Log(lg, message, context, ts).Some? ==>
      Log(lg, message, context, ts).value.file
        == Entry(ts, "info", ContextOf(context, lg.context), message, None) + "\n"
    ensures LogError(lg, message, trace, context, ts).Some? ==>
      LogError(lg, message, trace, context, ts).value.file
        == Entry(ts, "error", ContextOf(context, lg.context), message, trace) + "\n"
  {
  }

  /** Under a recognised configured level, the error path is never silent. */
  lemma ErrorsAlwaysWritten(lg: LoggerState, message: string, trace: Option<string>, context: Option<string>,
                            ts: string)
    requires lg.logLevel in Levels
    ensures LogError(lg, message, trace, context, ts).Some?
  {
    ErrorsAlwaysPass(lg.logLevel);
  }

  /** The context written after `setContext` is the call's own when it has one, else the one set. */
  lemma ContextAfterSet(lg: LoggerState, own: string, arg: Option<string>)
    requires own != ""
    ensures ContextOf(arg, SetContext(lg, own).context) == (if Truthy(arg) then arg.value else own)
  {
  }
}

=== FILE: mileages.dfy ===
/** Mileage entries: the rate default, the derived amount, and the lock on invoiced entries. */
module Mileages {
  import opened Wrappers
  import opened Entities
  import Clients
  import Ledger

  /** The stored amount matches the stored distance and rate. */
  predicate AmountConsistent(d: MileageData) {
    d.amount == d.distance * d.ratePerKm
  }

  datatype CreateMileageInput = CreateMileageInput(
    date: Instant,
    distance: real,
    ratePerKm: Option<real>,
    clientId: Id,
    description: Option<string>,
    fromLocation: Option<string>,
    toLocation: Option<string>)

  /**
   * Stores a new, unflagged entry for the caller; the rate defaults to the
   * user's (`??`, so 0 is kept). When neither gives a rate, the save of a null
   * into the NOT NULL rate column fails and nothing is written.
   */
  function Create(clients: map<Id, Client>, mileages: map<Id, Mileage>, user: UserProfile, userId: Id,
                  newId: Id, input: CreateMileageInput): (r: Result<map<Id, Mileage>>)
    requires newId !in mileages
    ensures r.Err? <==> !Clients.Owns(clients, userId, input.clientId)
                        || (input.ratePerKm.None? && user.mileageRate.None?)
    ensures !Clients.Owns(clients, userId, input.clientId) ==> r == Err(NotFound)
    ensures Clients.Owns(clients, userId, input.clientId) && input.ratePerKm.None? && user.mileageRate.None?
      ==> r == Err(StorageRejected)
    ensures r.Ok? ==> r.value.Keys == mileages.Keys + {newId}
    ensures r.Ok? ==> forall id :: id in mileages ==> r.value[id] == mileages[id]
    ensures r.Ok? ==>
      var m := r.value[newId];
      && m.userId == userId && m.clientId == input.clientId && !m.isInvoiced
      && m.data.date == input.date && m.data.distance == input.distance
      && (input.ratePerKm.Some? ==> m.data.ratePerKm == input.ratePerKm.value)
      && (input.ratePerKm.None? ==> m.data.ratePerKm == user.mileageRate.value)
      && m.data.description == input.description
      && m.data.fromLocation == input.fromLocation && m.data.toLocation == input.toLocation
      && AmountConsistent(m.data)
  {
    var _ :- Clients.FindOne(clients, userId, input.clientId);
    var rate := if input.ratePerKm.Some? then input.ratePerKm else user.mileageRate;
    if rate.None? then Err(StorageRejected)
    else
      var data := MileageData(input.date, input.distance, rate.value, input.distance * rate.value,
                              input.description, input.fromLocation, input.toLocation);
      Ok(mileages[newId := Record(userId, input.clientId, false, data)])
  }

  /**
   * An update body. The date is tested for truthiness, so `null` reads as
   * missing there; every other field is written whenever it is not `undefined`,
   * `null` included.
   */
  datatype MileagePatch = MileagePatch(
    date: Option<Instant>,
    distance: Field<real>,
    ratePerKm: Field<real>,
    clientId: Field<Id>,
    description: Field<string>,
    fromLocation: Field<string>,
    toLocation: Field<string>)

  /** The patch writes `null` into a NOT NULL column: the distance, the rate or the client id. */
  predicate WritesNullToRequired(patch: MileagePatch) {
    patch.distance.Null? || patch.ratePerKm.Null? || patch.clientId.Null?
  }

  /**
   * Updates an editable entry and always recomputes its amount. Missing, foreign
   * and invoiced entries are NotFound, as is a client id whose lookup fails;
   * after those checks, a `null` written into a NOT NULL column makes the save
   * fail. Nothing is written on any error.
   */
  function Update(clients: map<Id, Client>, mileages: map<Id, Mileage>, userId: Id, id: Id,
                  patch: MileagePatch): (r: Result<map<Id, Mileage>>)
    ensures r.Err? <==> !Ledger.Claimable(mileages, userId, id)
                        || !Clients.LookupPasses(clients, userId, patch.clientId)
                        || WritesNullToRequired(patch)
    ensures r.Err? ==>
      (r.error == NotFound <==> (!Ledger.Claimable(mileages, userId, id)
                                 || !Clients.LookupPasses(clients, userId, patch.clientId)))
    ensures r.Err? && r.error != NotFound ==> r.error == StorageRejected
    ensures r.Ok? ==> r.value.Keys == mileages.Keys
    ensures r.Ok? ==> forall other :: other in mileages && other != id ==> r.value[other] == mileages[other]
    ensures r.Ok? ==>
      var m, m' := mileages[id], r.value[id];
      && m'.userId == userId && !m'.isInvoiced
      && m'.clientId == patch.clientId.GetOr(m.clientId)
      && m'.data.date == patch.date.GetOr(m.data.date)
      && m'.data.distance == patch.distance.GetOr(m.data.distance)
      && m'.data.ratePerKm == patch.ratePerKm.GetOr(m.data.ratePerKm)
      && m'.data.description == Override(patch.description, m.data.description)
      && m'.data.fromLocation == Override(patch.fromLocation, m.data.fromLocation)
      && m'.data.toLocation == Override(patch.toLocation, m.data.toLocation)
      && AmountConsistent(m'.data)
  {
    if id !in mileages || mileages[id].userId != userId then Err(NotFound)
    else if mileages[id].isInvoiced then Err(NotFound)
    else if !Clients.LookupPasses(clients, userId, patch.clientId) then Err(NotFound)
    else if WritesNullToRequired(patch) then Err(StorageRejected)
    else
      var m := mileages[id];
      var d := m.data.(date := patch.date.GetOr(m.data.date),
                       distance := patch.distance.GetOr(m.data.distance),
                       ratePerKm := patch.ratePerKm.GetOr(m.data.ratePerKm),
                       description := Override(patch.description, m.data.description),
                       fromLocation := Override(patch.fromLocation, m.data.fromLocation),
                       toLocation := Override(patch.toLocation, m.data.toLocation));
      var d := d.(amount := d.distance * d.ratePerKm);
      Ok(mileages[id := m.(clientId := patch.clientId.GetOr(m.clientId), data := d)])
  }

  /** `remove`: the delete shared with the other record service. */
  function Remove(mileages: map<Id, Mileage>, userId: Id, id: Id): Result<map<Id, Mileage>> {
    Ledger.RemoveRecord(mileages, userId, id)
  }

  /** Creating an entry and deleting it again restores the store. */
  lemma CreateThenRemove(clients: map<Id, Client>, mileages: map<Id, Mileage>, user: UserProfile, userId: Id,
                         newId: Id, input: CreateMileageInput)
    requires newId !in mileages
    requires Clients.Owns(clients, userId, input.clientId)
    requires input.ratePerKm.Some? || user.mileageRate.Some?
    ensures Remove(Create(clients, mileages, user, userId, newId, input).value, userId, newId) == Ok(mileages)
  {
    assert Create(clients, mileages, user, userId, newId, input).value - {newId} == mileages;
  }

  /** An explicit rate of zero is kept, not replaced by the user's rate, so the amount is zero. */
  lemma ZeroRateKept(clients: map<Id, Client>, mileages: map<Id, Mileage>, user: UserProfile, userId: Id,
                     newId: Id, input: CreateMileageInput)
    requires newId !in mileages
    requires Clients.Owns(clients, userId, input.clientId)
    requires input.ratePerKm == Some(0.0)
    ensures Create(clients, mileages, user, userId, newId, input).value[newId].data.amount == 0.0
  {
  }

  /**
   * Without a rate in the input and with no rate on the user, creating an
   * entry fails and the store stays as it was.
   */
  lemma NullRateRejected(clients: map<Id, Client>, mileages: map<Id, Mileage>, user: UserProfile, userId: Id,
                         newId: Id, input: CreateMileageInput)
    requires newId !in mileages
    requires Clients.Owns(clients, userId, input.clientId)
    requires input.ratePerKm.None? && user.mileageRate.None?
    ensures Create(clients, mileages, user, userId, newId, input) == Err(StorageRejected)
  {
  }
}

=== FILE: seqs.dfy ===
/** Lists of ids as the services handle them: `includes`, `filter`, and the rows `find(In(ids))` returns. */
module Seqs {

  /** No element occurs twice. */
  predicate NoDup<T(==)>(s: seq<T>) {
    forall i, j :: 0 <= i < j < |s| ==> s[i] != s[j]
  }

  /** The elements of `s`, as a set. */
  function Elems<T>(s: seq<T>): set<T> {
    set x | x in s
  }

  /** `s` without repetitions, each element kept at its first occurrence. */
  function Distinct<T(==,!new)>(s: seq<T>): (r: seq<T>)
    ensures NoDup(r)
    ensures forall x :: x in r <==> x in s
    ensures |r| <= |s|
  {
    if |s| == 0 then []
    else
      var r := Distinct(s[..|s| - 1]);
      if s[|s| - 1] in r then r else r + [s[|s| - 1]]
  }

  /** `a.filter(x => !b.includes(x))`: order and repetitions of `a` are kept. */
  function Minus<T(==,!new)>(a: seq<T>, b: seq<T>): (r: seq<T>)
    ensures forall x :: x in r <==> x in a && x !in b
    ensures |r| <= |a|
    ensures NoDup(a) ==> NoDup(r)
  {
    if |a| == 0 then []
    else
      var r := Minus(a[1..], b);
      if a[0] in b then r else [a[0]] + r
  }

  /** Filtering out a superset of `a` leaves nothing. */
  lemma {:induction false} MinusCovered<T(!new)>(a: seq<T>, b: seq<T>)
    requires forall x :: x in a ==> x in b
    ensures Minus(a, b) == []
  {
    if |a| > 0 {
      MinusCovered(a[1..], b);
    }
  }

  /** Removing repetitions from a list that has none changes nothing. */
  lemma {:induction false} DistinctOfNoDup<T(!new)>(s: seq<T>)
    requires NoDup(s)
    ensures Distinct(s) == s
  {
    if |s| > 0 {
      var init := s[..|s| - 1];
      assert NoDup(init);
      DistinctOfNoDup(init);
      assert s[|s| - 1] !in init;
      assert init + [s[|s| - 1]] == s;
    }
  }

  /** A subset is no larger than its superset. */
  lemma {:induction false} SubsetCard<T>(a: set<T>, b: set<T>)
    requires a <= b
    ensures |a| <= |b|
    decreases b
  {
    if b != {} {
      var x :| x in b;
      SubsetCard(a - {x}, b - {x});
    }
  }

  /** A list has at most as many distinct elements as entries, and exactly as many iff it has no repetitions. */
  lemma {:induction false} ElemsCard<T>(s: seq<T>)
    ensures |Elems(s)| <= |s|
    ensures |Elems(s)| == |s| <==> NoDup(s)
  {
    if |s| > 0 {
      var rest := s[1..];
      ElemsCard(rest);
      assert Elems(s) == {s[0]} + Elems(rest);
      if s[0] in rest {
        assert Elems(s) == Elems(rest);
        var k :| 0 <= k < |rest| && rest[k] == s[0];
        assert s[0] == s[k + 1];
      } else {
        assert NoDup(s) <==> NoDup(rest) by {
          if NoDup(rest) {
            forall i, j | 0 <= i < j < |s|
              ensures s[i] != s[j]
            {
              if i == 0 {
                assert s[j] == rest[j - 1];
              } else {
                assert s[i] == rest[i - 1] && s[j] == rest[j - 1];
              }
            }
          }
          if NoDup(s) {
            forall i, j | 0 <= i < j < |rest|
              ensures rest[i] != rest[j]
            {
              assert rest[i] == s[i + 1] && rest[j] == s[j + 1];
            }
          }
        }
      }
    }
  }
}

=== FILE: shifts.dfy ===
/** Shift records: derived hours, earnings and HST, and the lock on invoiced shifts. */
module Shifts {
  import opened Wrappers
  import opened Entities
  import Clients
  import Ledger

  /** HST percentage used when the user's own is zero or unset. */
  const DefaultHstPercentage: real := 13.0

  /** `user.hstPercentage || 13`: a zero percentage is falsy and falls back too. */
  function HstPercentage(user: UserProfile): (p: real)
    ensures user.hstPercentage.Some? && user.hstPercentage.value != 0.0 ==> p == user.hstPercentage.value
    ensures user.hstPercentage.None? || user.hstPercentage.value == 0.0 ==> p == DefaultHstPercentage
    ensures p != 0.0
  {
    if user.hstPercentage.Some? && user.hstPercentage.value != 0.0 then user.hstPercentage.value
    else DefaultHstPercentage
  }

  /** Hours between two instants; negative when `end` precedes `start`. */
  function HoursBetween(start: Instant, end: Instant): real {
    (end - start) as real / MillisPerHour as real
  }

  /** The stored hours match the stored start and end. */
  predicate HoursConsistent(d: ShiftData) {
    d.totalHours == HoursBetween(d.startTime, d.endTime)
  }

  /** Every derived column matches its inputs under HST percentage `p`. */
  predicate Derived(d: ShiftData, p: real) {
    && HoursConsistent(d)
    && d.earnings == d.totalHours * d.hourlyRate
    && d.hstAmount == d.earnings * p / 100.0
  }

  /** `a || b` on nullable strings. */
  function OrString(a: Option<string>, b: Option<string>): Option<string> {
    if Truthy(a) then a else b
  }

  /** `a || b` on nullable numbers: zero is falsy. */
  function OrNumber(a: Option<real>, b: Option<real>): Option<real> {
    if a.Some? && a.value != 0.0 then a else b
  }

  datatype CreateShiftInput = CreateShiftInput(
    startTime: Instant,
    endTime: Instant,
    shiftType: ShiftType,
    hourlyRate: real,
    clientId: Id,
    notes: Option<string>,
    location: Option<string>,
    useCurrentLocation: bool)

  /** Stores a new, unflagged shift for the caller under `newId`. */
  function Create(clients: map<Id, Client>, shifts: map<Id, Shift>, user: UserProfile, userId: Id,
                  newId: Id, input: CreateShiftInput): (r: Result<map<Id, Shift>>)
    requires newId !in shifts
    ensures r.Err? <==> !Clients.Owns(clients, userId, input.clientId)
    ensures r.Err? ==> r.error == NotFound
    ensures r.Ok? ==> r.value.Keys == shifts.Keys + {newId}
    ensures r.Ok? ==> forall id :: id in shifts ==> r.value[id] == shifts[id]
    ensures r.Ok? ==>
      var s := r.value[newId];
      && s.userId == userId && s.clientId == input.clientId && !s.isInvoiced
      && s.data.startTime == input.startTime && s.data.endTime == input.endTime
      && s.data.hourlyRate == input.hourlyRate && s.data.shiftType == input.shiftType
      && s.data.notes == input.notes
      && Derived(s.data, HstPercentage(user))
    ensures r.Ok? && !input.useCurrentLocation ==>
      var d := r.value[newId].data;
      d.location == input.location && d.latitude.None? && d.longitude.None?
    ensures r.Ok? && input.useCurrentLocation ==>
      var c := clients[input.clientId];
      var d := r.value[newId].data;
      && d.location == (if Truthy(c.address) then c.address else input.location)
      && d.latitude == (if c.latitude.Some? && c.latitude.value != 0.0 then c.latitude else None)
      && d.longitude == (if c.longitude.Some? && c.longitude.value != 0.0 then c.longitude else None)
  {
    var client :- Clients.FindOne(clients, userId, input.clientId);
    var hours := HoursBetween(input.startTime, input.endTime);
    var earnings := hours * input.hourlyRate;
    var hst := earnings * HstPercentage(user) / 100.0;
    var location := if input.useCurrentLocation then OrString(client.address, input.location) else input.location;
    var latitude := if input.useCurrentLocation then OrNumber(client.latitude, None) else None;
    var longitude := if input.useCurrentLocation then OrNumber(client.longitude, None) else None;
    var data := ShiftData(input.startTime, input.endTime, input.shiftType, input.hourlyRate,
                          hours, earnings, hst, input.notes, location, latitude, longitude);
    Ok(shifts[newId := Record(userId, input.clientId, false, data)])
  }

  /**
   * An update body. The start and end are tested for truthiness, so `null` reads
   * as missing there; every other field is written whenever it is not
   * `undefined`, `null` included. `useCurrentLocation` defaults to false.
   */
  datatype ShiftPatch = ShiftPatch(
    startTime: Option<Instant>,
    endTime: Option<Instant>,
    shiftType: Field<ShiftType>,
    hourlyRate: Field<real>,
    clientId: Field<Id>,
    notes: Field<string>,
    location: Field<string>,
    useCurrentLocation: bool)

  /** The patch writes `null` into a NOT NULL column: the shift type, the hourly rate or the client id. */
  predicate WritesNullToRequired(patch: ShiftPatch) {
    patch.shiftType.Null? || patch.hourlyRate.Null? || patch.clientId.Null?
  }

  /** The new start, end and hours: recomputed only when either end of the shift is supplied. */
  function Retimed(d: ShiftData, patch: ShiftPatch): ShiftData {
    if patch.startTime.Some? || patch.endTime.Some? then
      var start := patch.startTime.GetOr(d.startTime);
      var end := patch.endTime.GetOr(d.endTime);
      d.(startTime := start, endTime := end, totalHours := HoursBetween(start, end))
    else d
  }

  /**
   * Updates an editable shift. Missing, foreign and invoiced shifts are NotFound,
   * as is a client id whose lookup fails; after those checks, a `null` written
   * into a NOT NULL column makes the save fail. Nothing is written on any error.
   */
  function Update(clients: map<Id, Client>, shifts: map<Id, Shift>, user: UserProfile, userId: Id,
                  id: Id, patch: ShiftPatch): (r: Result<map<Id, Shift>>)
    ensures r.Err? <==> !Ledger.Claimable(shifts, userId, id)
                        || !Clients.LookupPasses(clients, userId, patch.clientId)
                        || WritesNullToRequired(patch)
    ensures r.Err? ==>
      (r.error == NotFound <==> (!Ledger.Claimable(shifts, userId, id)
                                 || !Clients.LookupPasses(clients, userId, patch.clientId)))
    ensures r.Err? && r.error != NotFound ==> r.error == StorageRejected
    ensures r.Ok? ==> r.value.Keys == shifts.Keys
    ensures r.Ok? ==> forall other :: other in shifts && other != id ==> r.value[other] == shifts[other]
    ensures r.Ok? ==>
      var s, s' := shifts[id], r.value[id];
      && s'.userId == userId && !s'.isInvoiced
      && s'.clientId == patch.clientId.GetOr(s.clientId)
      && s'.data.hourlyRate == patch.hourlyRate.GetOr(s.data.hourlyRate)
      && s'.data.shiftType == patch.shiftType.GetOr(s.data.shiftType)
      && s'.data.notes == Override(patch.notes, s.data.notes)
      && s'.data.startTime == patch.startTime.GetOr(s.data.startTime)
      && s'.data.endTime == patch.endTime.GetOr(s.data.endTime)
      && (patch.startTime.None? && patch.endTime.None? ==> s'.data.totalHours == s.data.totalHours)
      && (patch.startTime.Some? || patch.endTime.Some? ==> HoursConsistent(s'.data))
      && s'.data.earnings == s'.data.totalHours * s'.data.hourlyRate
      && s'.data.hstAmount == s'.data.earnings * HstPercentage(user) / 100.0
    ensures r.Ok? && !(patch.useCurrentLocation && Truthy(patch.clientId.ToOption())) ==>
      && r.value[id].data.location == Override(patch.location, shifts[id].data.location)
      && r.value[id].data.latitude == shifts[id].data.latitude
      && r.value[id].data.longitude == shifts[id].data.longitude
    ensures r.Ok? && patch.useCurrentLocation && Truthy(patch.clientId.ToOption()) ==>
      var c, d := clients[patch.clientId.value], shifts[id].data;
      && r.value[id].data.location == OrString(c.address, Override(patch.location, d.location))
      && r.value[id].data.latitude == OrNumber(c.latitude, d.latitude)
      && r.value[id].data.longitude == OrNumber(c.longitude, d.longitude)
  {
    if id !in shifts || shifts[id].userId != userId then Err(NotFound)
    else if shifts[id].isInvoiced then Err(NotFound)
    else if !Clients.LookupPasses(clients, userId, patch.clientId) then Err(NotFound)
    else if WritesNullToRequired(patch) then Err(StorageRejected)
    else
      var s := shifts[id];
      var d := Retimed(s.data, patch);
      var d := d.(hourlyRate := patch.hourlyRate.GetOr(d.hourlyRate),
                  shiftType := patch.shiftType.GetOr(d.shiftType),
                  notes := Override(patch.notes, d.notes),
                  location := Override(patch.location, d.location));
      var d := if patch.useCurrentLocation && Truthy(patch.clientId.ToOption()) then
        var c := clients[patch.clientId.value];
        d.(location := OrString(c.address, d.location),
           latitude := OrNumber(c.latitude, d.latitude),
           longitude := OrNumber(c.longitude, d.longitude))
      else d;
      var earnings := d.totalHours * d.hourlyRate;
      var d := d.(earnings := earnings, hstAmount := earnings * HstPercentage(user) / 100.0);
      Ok(shifts[id := s.(clientId := patch.clientId.GetOr(s.clientId), data := d)])
  }

  /** `remove`: the delete shared with the other record service. */
  function Remove(shifts: map<Id, Shift>, userId: Id, id: Id): Result<map<Id, Shift>> {
    Ledger.RemoveRecord(shifts, userId, id)
  }

  /**
   * Derived columns stay consistent across an update: if the stored hours matched
   * the stored times before, every derived column matches after, under the
   * current user's HST percentage.
   */
  lemma UpdateKeepsDerived(clients: map<Id, Client>, shifts: map<Id, Shift>, user: UserProfile,
                           userId: Id, id: Id, patch: ShiftPatch)
    requires id in shifts && HoursConsistent(shifts[id].data)
    requires Update(clients, shifts, user, userId, id, patch).Ok?
    ensures Derived(Update(clients, shifts, user, userId, id, patch).value[id].data, HstPercentage(user))
  {
  }

  /** Creating a shift and deleting it again restores the store. */
  lemma CreateThenRemove(clients: map<Id, Client>, shifts: map<Id, Shift>, user: UserProfile, userId: Id,
                         newId: Id, input: CreateShiftInput)
    requires newId !in shifts
    requires Clients.Owns(clients, userId, input.clientId)
    ensures Remove(Create(clients, shifts, user, userId, newId, input).value, userId, newId) == Ok(shifts)
  {
    assert Create(clients, shifts, user, userId, newId, input).value - {newId} == shifts;
  }

  /** A shift whose end precedes its start is accepted and stored with negative hours and earnings. */
  lemma NegativeHoursAccepted(clients: map<Id, Client>, shifts: map<Id, Shift>, user: UserProfile, userId: Id,
                              newId: Id, input: CreateShiftInput)
    requires newId !in shifts
    requires Clients.Owns(clients, userId, input.clientId)
    requires input.endTime < input.startTime && input.hourlyRate > 0.0
    ensures Create(clients, shifts, user, userId, newId, input).Ok?
    ensures Create(clients, shifts, user, userId, newId, input).value[newId].data.totalHours < 0.0
    ensures Create(clients, shifts, user, userId, newId, input).value[newId].data.earnings < 0.0
  {
    var d := Create(clients, shifts, user, userId, newId, input).value[newId].data;
    assert d.totalHours == (input.endTime - input.startTime) as real / 3_600_000.0;
  }

  /**
   * A user HST percentage of zero is not honoured: the stored shift is charged
   * 13% HST, so positive earnings carry positive HST.
   */
  lemma ZeroHstFallsBack(clients: map<Id, Client>, shifts: map<Id, Shift>, user: UserProfile, userId: Id,
                         newId: Id, input: CreateShiftInput)
    requires newId !in shifts
    requires Clients.Owns(clients, userId, input.clientId)
    requires user.hstPercentage == Some(0.0)
    ensures Create(clients, shifts, user, userId, newId, input).Ok?
    ensures var d := Create(clients, shifts, user, userId, newId, input).value[newId].data;
      && d.hstAmount == d.earnings * 13.0 / 100.0
      && (d.earnings > 0.0 ==> d.hstAmount > 0.0)
  {
  }
}

=== FILE: wrappers.dfy ===
/** Optional values and the service layer's error-carrying results. */
module Wrappers {

  /** A value that may be absent: a missing DTO field, a nullable column. */
  datatype Option<+T> = None | Some(value: T) {

    /** The carried value, or `default` when absent (JavaScript's `??`). */
    function GetOr(default: T): T {
      match this
      case Some(v) => v
      case None => default
    }
  }

  /**
   * The HTTP exceptions the services throw, and `StorageRejected` for a save
   * the database refuses (a NOT NULL column given null), which surfaces as a
   * server error with nothing written.
   */
  datatype Error = NotFound | BadRequest | Unauthorized | StorageRejected

  /** Either the operation's value or the exception it throws. */
  datatype Result<+T> = Ok(value: T) | Err(error: Error) {

    predicate IsFailure() {
      Err?
    }

    function PropagateFailure<U>(): Result<U>
      requires Err?
    {
      Err(error)
    }

    function Extract(): T
      requires Ok?
    {
      value
    }
  }

  /**
   * One field of a JSON update body: left out, sent as `null`, or sent with a
   * value. Validation lets `null` through every optional field, so the services
   * see all three.
   */
  datatype Field<+T> = Absent | Null | Given(value: T) {

    /** The field as JavaScript reads it in a truthiness test: `null` and a missing field alike carry nothing. */
    function ToOption(): Option<T> {
      if Given? then Some(value) else None
    }

    /** The supplied value, or `default` when the field carries none. */
    function GetOr(default: T): T {
      if Given? then value else default
    }
  }

  /**
   * A field copied into a nullable column when it is not `undefined`: a value
   * replaces the stored one, `null` clears it, and a missing field keeps it.
   */
  function Override<T>(patch: Field<T>, prev: Option<T>): (r: Option<T>)
    ensures patch.Absent? ==> r == prev
    ensures !patch.Absent? ==> r == patch.ToOption()
  {
    match patch
    case Absent => prev
    case Null => None
    case Given(v) => Some(v)
  }

  /** JavaScript truthiness of an optional string: present and non-empty. */
  predicate Truthy(s: Option<string>) {
    s.Some? && s.value != ""
  }
}
